=== FILE: README.md ===
# rhythmlink backend: groups, join requests, messaging threads and users

A Dafny model of the domain layer of the rhythmlink backend, a service where
musicians find bands (groups), ask to join them and message them.

The database is a `Tables.Database` object. It has one sequence field per table:
users, groups, group members, group requests, threads and messages. It also has
the auto-increment counters of the tables whose key is an integer. The services
are the following.

- **Group service** (`group_service.dfy`). Creating a group inserts the group
  row and its OWNER membership row. A join request for a (user, group) pair goes
  from no row to "Received". The group's owner then moves it to "Accepted",
  which also inserts a MEMBER row, or to "Denied". The service also lists a
  user's groups, lists a group's requests for its owner, and searches groups
  with paging.
- **Message service** (`message_service.dfy`). There is one thread per
  (user, group) pair, found or created on first contact. Each message is sent
  either by the user side or by the group side, never both. The service checks
  who may reply or read. It lists a thread's messages oldest first, and lists
  thread summaries that carry the newest message.
- **Request validation** (`validation.dfy`). Enum membership for genres and
  instruments, and the login, register and edit-profile rule sets, all as
  predicates.
- **User service** (`user_service.dfy`). Registration with a unique email,
  lookup by id, and the profile edit. The edit writes only the fields supplied
  with a truthy value and signs claims that merge the new and stored values.
  Tokens expire 24 hours after issue.

Every state-changing service is a method on the `Database` whose contract gives
the complete new state of the tables it may modify, for the error cases too.
Every such method also preserves `Database.Valid()`, which says:

- ids are below the next auto-increment value and ascending;
- emails are unique;
- every user's instrument and genres are values of the user model's enums;
- there is one request row per (user, group) pair;
- there is one membership row per (group, user) pair;
- there is one thread per (user, group) pair;
- every group has exactly one OWNER row;
- every message has exactly one of `senderUserId` and `senderGroupId` set.

Read-only services are functions of the tables, except `GroupService.GetGroupsByUser`
and `GroupService.SearchGroup`, which loop in the source and are methods that
change nothing. Their contracts are connected to
independent definitions by lemmas, for example:

- the ordered listing is sorted and a permutation of the thread's messages;
- a new message is last in the listing;
- a listing contains exactly the matching threads;
- consecutive pages tile the search result, in the model's storage order;
- the signed claims agree with the stored row after an edit.

The error classes `NotFoundError`, `ForbiddenError` and `UserAlreadyExistsError`
are imported from `src/common/errors.ts` but are not defined there. The model
gives each of them its own tag in `Common.Error`. The other tags are:

- `UserNotFound` for `UserNotFoundError`;
- `Plain` for the group service's plain `Error` throws, with a reason;
- `InvalidRow` for a row the storage refuses;
- `NullUser` for the TypeError of reading a missing user;
- `BadQuery` for a negative LIMIT or OFFSET;
- `DuplicateKey` for a row whose primary key is already taken;
- `UnknownAlias` for an eager load that names an association the model does not declare.

## Model

| member | source | states |
|---|---|---|
| Tables.FindUser | src/services/user.service.ts:52-55 | `findUserById`: the user with that id if some row has it, and nothing exactly when no row has it |
| GroupService.CreateNewGroup | src/services/group.service.ts:29-50 | a valid row adds exactly one group with the next id and exactly one `(newId, ownerId, OWNER)` membership; the response echoes the stored group; a row the model refuses (no URL, a genre outside `MusicGenre`) fails and changes nothing; the table invariants are kept |
| GroupService.GetGroup | src/services/group.service.ts:59-73 | fails exactly when no group has the id; otherwise returns that group's name, image URL and genres |
| GroupService.GroupsOfSound | src/services/group.service.ts:92-100 | the groups collected for a list of memberships number at most the memberships, all exist and are named by some membership, include the group of every membership whose group exists, and number exactly the memberships when every group exists |
| GroupService.GetGroupsByUser | src/services/group.service.ts:80-107 | fails when the user has no membership row; otherwise the loop returns the groups of the user's memberships in membership order, skipping missing groups |
| GroupService.GetGroupRequests | src/services/group.service.ts:109-137 | a caller who does not own the group fails; a group with no requests fails; otherwise the result is non-empty and holds exactly the group's requests, whatever their status, and succeeds exactly in that case |
| GroupService.OffsetFacts | src/services/group.service.ts:146-147 | the defaults 20 and 1 give offset 0, page 1 always starts at 0, and consecutive pages start `pageSize` rows apart |
| GroupService.Page | src/services/group.service.ts:167-171 | a negative limit or offset is refused; otherwise at most `limit` rows, exactly the ones from position `offset` on, with the exact count |
| GroupService.ConsecutivePagesTile | src/services/group.service.ts:146-171 | two consecutive pages of the same size are adjacent slices: together they are the `2 * pageSize` rows from the first page's offset |
| GroupService.SearchGroup | src/services/group.service.ts:139-178 | with defaults 20 and 1 and the `where` built only from a non-empty name and a non-empty genre list, the result is that page of the matching groups; it never has more than `limit` groups, every group in it exists and matches, and with both defaults it succeeds with at most 20 groups |
| GroupService.JoinGroup | src/services/group.service.ts:180-226 | an existing request for the pair, whatever its status, fails first; then the owner joining their own group fails; neither creates anything; otherwise exactly one "Received" request is appended and echoed; one request per pair is kept |
| GroupService.SetStatus | src/services/group.service.ts:258-266 | the update keeps every row's pair and time, gives the pair's rows the new status and leaves every other row as it was |
| GroupService.SetStatusEffect | src/services/group.service.ts:258-266 | after the update, the one-row-per-pair key still holds, a lookup of the pair finds its old row with the new status, and a lookup of any other pair finds what it found before |
| GroupService.SameRowsForOtherPair | src/services/group.service.ts:317-325 | updating one pair's status does not change what a lookup of any other pair returns |
| GroupService.AddMemberKeepsKey | src/models/groupMembers.ts:34-35 | appending a MEMBER row of an existing group for a pair that has no membership row keeps the group invariants, the through-table's (groupId, userId) key included |
| GroupService.AcceptJoinRequest | src/services/group.service.ts:228-285 | a caller who does not own the group fails; then a missing request fails; both leave every table unchanged; otherwise, without looking at the current status, the pair's request becomes "Accepted"; if the user already has a membership row for the group, the insert is refused with DuplicateKey and the status update stays applied; otherwise exactly one `(groupId, userId, MEMBER)` row is appended and the response is that row; one membership row per pair is kept |
| GroupService.DenyJoinRequest | src/services/group.service.ts:287-330 | the same two checks in the same order, leaving everything unchanged on failure; otherwise the pair's request becomes "Denied" and nothing else changes, the membership table included |
| MessageService.FindOrCreateThread | src/services/message.service.ts:14-17 | returns the pair's existing thread and changes nothing, or creates one with the next id; afterwards the pair has exactly that thread |
| MessageService.AppendMessage | src/services/message.service.ts:73-79 | appends exactly one message with the next id, the given senders and content, stamped now |
| MessageService.CreateGroupMessage | src/services/message.service.ts:9-40 | finds or creates the (userId, groupId) thread without a membership check and leaves an existing thread row untouched; appends exactly one message with `senderUserId = userId` and no group sender; a missing sender fails with UserNotFound after the message is stored; otherwise the response has senderType USER, the thread id, and the user as sender and sentBy |
| MessageService.SendTwice | src/services/message.service.ts:14-17 | two messages from the same user to the same group use the same thread, and at most one thread is created |
| MessageService.CreateThreadReply | src/services/message.service.ts:43-93 | an unknown thread fails with NotFound first; as the group, a caller without a membership row fails with Forbidden and a missing group fails; as the user, a caller other than the thread's user fails with Forbidden and a missing user fails with UserNotFound; none of these appends anything; otherwise exactly one message with exactly one sender field set is appended, and a missing caller then fails with UserNotFound with the message kept |
| MessageService.InsertByTime | src/services/message.service.ts:141 | inserting a message grows the listing by one and adds exactly that message |
| MessageService.InsertKeepsSorted | src/services/message.service.ts:141 | inserting into a listing ordered by `createdAt` keeps it ordered |
| MessageService.SortByTime | src/services/message.service.ts:141 | the listing is ordered by ascending `createdAt` and is a permutation of the input |
| MessageService.SentMessageIsLast | src/services/message.service.ts:135-142 | a message no older than the rest of its thread comes last in the thread's ordered listing, after the messages listed before it |
| MessageService.Newest | src/services/message.service.ts:101-106 | the newest message: nothing exactly when there are no messages, otherwise one of them that no other is newer than |
| MessageService.View | src/services/message.service.ts:144-152 | senderType is USER exactly when the row's sender user is found, and then the sender is that stored user; otherwise senderType is GROUP and the sender is present exactly when the row's sender group is found, and is then that stored group; sender and sentBy are the same; id, thread, content and time are the row's |
| MessageService.GetThreadMessages | src/services/message.service.ts:127-153 | an unknown thread fails with NotFound; anyone but the thread's user fails with Forbidden, a group member included; otherwise it succeeds with exactly the thread's messages, one view per message, oldest first |
| MessageService.UserSummary | src/services/message.service.ts:110-121 | a thread's summary carries its group and user; the last-message timestamp is absent exactly when the thread has no messages; the last message is absent exactly when there is none or its content is empty, and otherwise is the content of a newest message |
| MessageService.GetUserThreads | src/services/message.service.ts:95-123 | one summary per thread of the user, in storage order |
| MessageService.UserThreadsExact | src/services/message.service.ts:95-122 | every summary is of a thread of the user, and every thread of the user has a summary |
| MessageService.GroupSummary | src/services/message.service.ts:180-186 | a thread's summary carries the thread's user as user and participant; the last message is absent exactly when the thread has no messages, and otherwise is the content of a newest message |
| MessageService.GetGroupThreads | src/services/message.service.ts:157-187 | fails with Forbidden exactly when the caller has no membership row in the group; otherwise one summary per thread of the group, in storage order |
| MessageService.GroupThreadsExact | src/services/message.service.ts:161-186 | every summary is of a thread of the group, and every thread of the group has a summary |
| MessageService.GetGroupThreadsAsWritten | src/services/message.service.ts:157-178 | the code as written never succeeds: a caller without a membership row fails with Forbidden, and every member's call fails with UnknownAlias |
| MessageService.GroupThreadsAsWrittenFailsForMembers | src/services/message.service.ts:168-178 | for the owner of a group with one thread, the code as written fails while the intended listing returns that thread |
| Validation.GenreValueNotKey | src/common/validation.ts:14-16 | `isValidEnumValue` compares against values: "Hip-Hop" is a genre, its key name "HIPHOP" is not |
| Validation.AreValidEnumValuesAppend | src/common/validation.ts:18-20 | `areValidEnumValues`, an `every` over the list, holds of the empty list, and of a concatenation exactly when it holds of both parts |
| Validation.ValidLogin | src/common/validation.ts:4-12 | a login body is valid exactly when it has a non-empty email the email check accepts and a password of at least 10 characters |
| Validation.ValidRegister | src/common/validation.ts:22-49 | a valid registration body has every field: an accepted email, a username of at least 6, a password and an address of at least 10 characters, an instrument from `Instrument`, and a genre array whose every element is from `MusicGenre` |
| Validation.ValidEditProfile | src/common/validation.ts:51-74 | every field is optional: a body with none of the profile fields is valid; a present instrument outside `Instrument`, a present genre field that is not an array, or a present genre array with a value outside `MusicGenre` is rejected |
| Validation.ShortFieldsRejected | src/common/validation.ts:22-62 | registration rejects a username under 6, a password under 10 or an address under 10 characters, a missing one included; edit-profile rejects each such value that is sent, whatever the other fields hold |
| Validation.GenreArrayRules | src/common/validation.ts:44-73 | a genre field that is not an array fails registration, and fails edit-profile when sent; `.notEmpty()` checks each element, so an empty array passes registration exactly as a one-genre array does, and passes edit-profile exactly as an absent field does |
| Validation.RegisterValidIsEditValid | src/common/validation.ts:22-74 | every body valid for registration is valid for edit-profile |
| Validation.ValidEditFieldsAreTruthy | src/common/validation.ts:51-67 | in a valid edit-profile body every string field that is present is non-empty |
| UserService.ClaimsOmitCredentials | src/services/user.service.ts:36-44 | the claims do not depend on the email or the password |
| UserService.RegisterUser | src/services/user.service.ts:8-50 | an email already in use fails with UserAlreadyExists and creates nothing; a row the user model refuses (src/models/user.ts:53-76: an email its `isEmail` validator rejects, an instrument or genre outside its enums) fails with InvalidRow and creates nothing; otherwise exactly one user is created from the six supplied fields, with the password passed through the creation hook; the session carries that user's claims and expires 24 h later; emails stay unique |
| UserService.EditedRow | src/services/user.service.ts:66-95 | the step-by-step construction of `updatedData`, the row and the claims gives exactly the merged row and the merged claims |
| UserService.EditUserProfile | src/services/user.service.ts:57-103 | a missing user fails and changes nothing; an edit whose row the user model refuses (an instrument or genre outside its enums) fails with InvalidRow and changes nothing; otherwise only that user's row is replaced, by the merge of the truthy fields, and the session carries the merged claims with the image URL the upload produced; the URL is not stored on the row |
| UserService.EditRefusedExactlyForBadValues | src/models/user.ts:69-76 | on a stored row, an edit is refused exactly when it writes an instrument outside `Instrument` or a genre list with a value outside `MusicGenre` |
| UserService.EditClaimsMatchRow | src/services/user.service.ts:86-95 | the signed claims agree with the stored row after the edit on every field both carry, `createdAt` included; they are stamped now |
| UserService.EditKeepsIdentity | src/services/user.service.ts:79-84 | the edit never changes the id, the email or `createdAt`; the password changes exactly when a truthy one is supplied and is stored as given |
| UserService.EditStampsOnlyChanges | src/services/user.service.ts:100 | `updatedAt` moves only to now, and only when some other stored value changed |
| UserService.EmptyEditChangesNothing | src/services/user.service.ts:79-84 | an edit with no truthy field leaves the row exactly as it was |
| UserService.EditIsIdempotent | src/services/user.service.ts:79-100 | repeating an edit changes nothing more, not even `updatedAt` |

## Left out

- Controllers, routes and `src/index.ts`: request parsing, HTTP status codes and response plumbing are not part of this model. Neither is the image type check in the group controller.
- Token signing and verification, the auth middleware and bcrypt are not part of this model. The claims are computed and the signature is not. The `beforeCreate` password hook is the function parameter `hash` of `RegisterUser`.
- The expiry is an integer number of milliseconds. Its ISO-8601 rendering is left out.
- The blob service is not part of this model. An upload is the URL it produced, passed in as an `Option`. As written, `uploadBlob` returns nothing, so `createNewGroup` passes no URL. The group's `mainImageUrl` column does not allow null (src/models/group.ts:33-36), so the storage refuses the row, nothing is stored and the call fails with `InvalidRow`. The model lets the caller choose between that case and a produced URL.
- `getRecommendations` (an HTTP fetch) and the Python recommender in `ml_model` are not part of this model.
- The clock is the parameter `now`. Rows carry only the timestamps the services read or return. The `createdAt` and `updatedAt` of request rows are not modelled (membership rows have no timestamps).
- Foreign keys are not enforced. A row naming a missing user or group is stored, where the database would refuse it: a group whose `ownerId` names no user, a membership row from `CreateNewGroup` or `AcceptJoinRequest` naming a missing user, and a request, thread or message naming a missing user or group.
- GroupService.Like: SQL `LIKE` is modelled as a case-sensitive literal substring match. In the real pattern `%name%`, a `%` or `_` inside the searched name is a wildcard, so "a_c" also matches "abc"; the model does not match that. Database collation is left out too.
- GroupService.ConsecutivePagesTile: `Group.findAll` in `searchGroup` has no `order`, so the database may return rows in any order; that consecutive pages tile the result holds for the model's storage order only.
- `Op.in` on the JSON `genres` column is the parameter `genreIn` of `SearchGroup`, because its meaning depends on the database.
- Messages that share a `createdAt` are listed in storage order. SQL leaves that order unspecified.
- GroupService.SearchGroup: `parseInt` of the page parameters is not modelled. Non-numeric text, which gives NaN, is out of scope. The parameters are integers or absent.
- The `sentByUserId` written by the message service is not a column of the message table, so it is not stored.
- MessageService.GetGroupThreads: describes the intended listing (see "Findings"); the code as written is `GetGroupThreadsAsWritten`.
- MessageService.GetUserThreads: `createdAt || null` on a date is modelled as always present when a message exists.
- Validation.ValidRegister: `.notEmpty()` on the genre array is read as the validator library running standard validators on each element of an array, so an empty array passes registration (this is what `GenreArrayRules` states). If the library instead checked the array as a whole, registration would also reject `[]`.
- The email format check used by the rule sets and by the user model's `isEmail` validator is the parameter `isEmail` (both come from the validator library). The body fields other than the six checked ones are not modelled.
- The error messages are not modelled, only their kind.
- MessageService.CreateGroupMessage: string columns are unbounded in the model; the 255-character limit of `STRING` columns (here the message `content`) and the error the storage raises for a longer value are not modelled, nor the thread a failed insert would leave behind.
- MessageService.CreateThreadReply: the 255-character limit of the message `content` column and the error it raises are not modelled.
- UserService.RegisterUser: the 255-character limit of the `username`, `email`, `password` and `address` columns and the error it raises are not modelled.
- UserService.EditUserProfile: the 255-character limit of the `username`, `password` and `address` columns and the error it raises are not modelled.
- GroupService.CreateNewGroup: the 255-character limit of the group `name` column and the error it raises are not modelled.
- Operations do not interleave: the concurrency of `findOrCreate` is left out. The multi-write paths are modelled without rollback, as in the source, which uses no transaction: `AcceptJoinRequest` keeps the status update when the membership insert fails with DuplicateKey, and `CreateGroupMessage` and `CreateThreadReply` keep the stored message (and a thread just created) when they then fail with UserNotFound.
- Logging, mocks and test configuration are not part of this model.

## Findings

| source | as written | input that shows it | evidently intended | confidence | as-written member | corrected member |
|---|---|---|---|---|---|---|
| src/services/message.service.ts:168-178 | the eager load includes `Message` without the alias "messages" and `User` with the alias "participant", while src/models/thread.ts:46-47 declares "messages" and "user"; the ORM refuses such an include, so every member's call fails | the owner of group 1, which has one thread, asks for the group's threads | one summary per thread of the group, with its user and newest message | high; not executed | MessageService.GetGroupThreadsAsWritten, MessageService.GroupThreadsAsWrittenFailsForMembers | MessageService.GetGroupThreads, MessageService.GroupThreadsExact |

=== FILE: common.dfy ===
/** Values shared by every service: optional values, results, and the error
    kinds the services raise. */
module Common {

  datatype Option<+T> = None | Some(value: T)

  /** The outcome of a service call: a value, or the error it throws. */
  datatype Result<+T> = Ok(value: T) | Err(error: Error)

  /** What a plain `Error` thrown by a service is about (the services throw
      `new Error(...)` with a message; the message's subject is kept here). */
  datatype Reason =
    | GroupNotFound     // no group with the given id
    | NoMemberships     // the user has no membership rows
    | NotGroupOwner     // the caller does not own the group
    | NoRequests        // the group has no join requests
    | RequestExists     // a join request for the pair already exists
    | OwnerCannotJoin   // the owner asked to join their own group
    | RequestNotFound   // no join request for the pair

  /** The error kinds. `NotFound`, `Forbidden` and `UserAlreadyExists` stand for
      the classes of those names the services import; `UserNotFound` is
      `UserNotFoundError`; `Plain` is a plain `Error`; `InvalidRow` is the
      storage refusing a row that a model validator or a column type rejects;
      `NullUser` is the TypeError raised by reading a field of a user that was
      not found; `BadQuery` is the storage rejecting a query with a negative
      LIMIT or OFFSET; `DuplicateKey` is the storage refusing a row whose
      primary key is already taken; `UnknownAlias` is the storage refusing an
      eager load whose include does not name an association the model
      declares. */
  datatype Error =
    | NotFound
    | Forbidden
    | UserAlreadyExists
    | UserNotFound
    | Plain(reason: Reason)
    | InvalidRow
    | NullUser
    | BadQuery
    | DuplicateKey
    | UnknownAlias
}

=== FILE: group_service.dfy ===
/** The group service: creating groups, reading them, searching, and the
    join-request workflow. A join request for a (user, group) pair goes from
    no row to "Received", and the group's owner moves it to "Accepted" (which
    also adds a MEMBER row) or "Denied". */
module GroupService {
  import opened Common
  import opened Seqs
  import opened Tables
  import Validation

  /** `GroupCreateResponse`. */
  datatype GroupCreateResponse = GroupCreateResponse(
    id: int, name: string, ownerId: int, mainImageUrl: string, genres: seq<string>,
    createdAt: int, updatedAt: int)

  /** `GroupGetResponse`. */
  datatype GroupView = GroupView(name: string, mainImageUrl: string, genres: seq<string>)

  /** `GroupJoinResponse`. */
  datatype JoinResponse = JoinResponse(userId: int, groupId: int, sentAt: int, status: RequestStatus)

  /** `GroupUpdateRequestResponse`. */
  datatype UpdateRequestResponse = UpdateRequestResponse(groupId: int, userId: int, role: Role)

  /** The group model's own checks on a new row: `mainImageUrl` may not be
      null, and every genre must be a `MusicGenre` value. */
  predicate GroupRowValid(genres: seq<string>, mainImageUrl: Option<string>) {
    mainImageUrl.Some? && Validation.AreValidEnumValues(genres, Validation.MUSIC_GENRES)
  }

  /** `createNewGroup`. `mainImageUrl` is what the blob upload produced
      (`None`: nothing). The group row and then its OWNER row are inserted. */
  method CreateNewGroup(db: Database, ownerId: int, name: string, genres: seq<string>,
                        mainImageUrl: Option<string>, now: int)
    returns (r: Result<GroupCreateResponse>)
    requires db.Valid()
    modifies db`groups, db`members, db`nextGroupId
    ensures db.Valid()
    ensures r.Err? <==> !GroupRowValid(genres, mainImageUrl)
    ensures r.Err? ==> r.error == InvalidRow && unchanged(db)
    ensures r.Ok? ==>
      var g := Group(old(db.nextGroupId), name, ownerId, genres, mainImageUrl.value, now, now);
      && db.groups == old(db.groups) + [g]
      && db.members == old(db.members) + [Membership(g.id, ownerId, Owner)]
      && db.nextGroupId == old(db.nextGroupId) + 1
      && r.value == GroupCreateResponse(g.id, g.name, g.ownerId, g.mainImageUrl, g.genres, g.createdAt, g.updatedAt)
  {
    if !GroupRowValid(genres, mainImageUrl) {
      return Err(InvalidRow);
    }
    var newGroup := Group(db.nextGroupId, name, ownerId, genres, mainImageUrl.value, now, now);
    db.groups := db.groups + [newGroup];
    db.nextGroupId := db.nextGroupId + 1;
    var response := GroupCreateResponse(newGroup.id, newGroup.name, newGroup.ownerId,
                                        newGroup.mainImageUrl, newGroup.genres,
                                        newGroup.createdAt, newGroup.updatedAt);
    var ownerRow := Membership(newGroup.id, newGroup.ownerId, Owner);
    AppendFreshKey(db.members, MemberKey, ownerRow);
    db.members := db.members + [ownerRow];
    return Ok(response);
  }

  /** `getGroup`. */
  function GetGroup(groups: seq<Group>, id: int): (r: Result<GroupView>)
    ensures r.Err? <==> (forall g :: g in groups ==> g.id != id)
    ensures r.Err? ==> r.error == Plain(GroupNotFound)
    ensures r.Ok? ==> exists g :: g in groups && g.id == id && r.value == GroupView(g.name, g.mainImageUrl, g.genres)
  {
    match FindGroup(groups, id)
    case None => Err(Plain(GroupNotFound))
    case Some(g) => Ok(GroupView(g.name, g.mainImageUrl, g.genres))
  }

  /** `GroupMembers.findAll({ where: { userId } })`. */
  function MembershipsOf(members: seq<Membership>, userId: int): seq<Membership> {
    Filter(members, (m: Membership) => m.userId == userId)
  }

  /** The group of each membership in `ms`, in order, skipping memberships
      whose group does not exist. */
  function GroupsOf(groups: seq<Group>, ms: seq<Membership>): seq<Group> {
    if ms == [] then []
    else
      var rest := GroupsOf(groups, ms[..|ms| - 1]);
      match FindGroup(groups, ms[|ms| - 1].groupId)
      case Some(g) => rest + [g]
      case None => rest
  }

  /** `GroupsOf` yields at most one group per membership, only groups that
      exist and that some membership names, and the group of every membership
      whose group exists. */
  lemma {:induction false} GroupsOfSound(groups: seq<Group>, ms: seq<Membership>)
    ensures |GroupsOf(groups, ms)| <= |ms|
    ensures forall g :: g in GroupsOf(groups, ms) ==> g in groups && exists m :: m in ms && m.groupId == g.id
    ensures forall m :: m in ms && FindGroup(groups, m.groupId).Some? ==>
              FindGroup(groups, m.groupId).value in GroupsOf(groups, ms)
    ensures (forall m :: m in ms ==> FindGroup(groups, m.groupId).Some?) ==> |GroupsOf(groups, ms)| == |ms|
  {
    if ms != [] {
      var init, last := ms[..|ms| - 1], ms[|ms| - 1];
      assert ms == init + [last];
      GroupsOfSound(groups, init);
      forall g | g in GroupsOf(groups, ms)
        ensures g in groups && exists m :: m in ms && m.groupId == g.id
      {
        if g in GroupsOf(groups, init) {
          var m :| m in init && m.groupId == g.id;
          assert m in ms;
        } else {
          assert last in ms;
        }
      }
    }
  }

  /** `getGroupsByUser`: fails when the user has no membership rows; otherwise
      the groups of the user's memberships, in membership order. */
  method GetGroupsByUser(db: Database, userId: int) returns (r: Result<seq<Group>>)
    ensures MembershipsOf(db.members, userId) == [] ==> r == Err(Plain(NoMemberships))
    ensures MembershipsOf(db.members, userId) != [] ==>
              r == Ok(GroupsOf(db.groups, MembershipsOf(db.members, userId)))
  {
    var groupMembers := MembershipsOf(db.members, userId);
    if |groupMembers| == 0 {
      return Err(Plain(NoMemberships));
    }
    var userGroups: seq<Group> := [];
    for i := 0 to |groupMembers|
      invariant userGroups == GroupsOf(db.groups, groupMembers[..i])
    {
      assert groupMembers[..i + 1][..i] == groupMembers[..i];
      var group := FindGroup(db.groups, groupMembers[i].groupId);
      if group.Some? {
        userGroups := userGroups + [group.value];
      }
    }
    assert groupMembers[..|groupMembers|] == groupMembers;
    return Ok(userGroups);
  }

  /** `GroupRequest.findAll({ where: { group_id } })`. */
  function RequestsOf(requests: seq<JoinRequest>, groupId: int): seq<JoinRequest> {
    Filter(requests, (q: JoinRequest) => q.groupId == groupId)
  }

  /** `getGroupRequests`: only the owner may list, and a group with no
      requests is an error; otherwise every request of the group, whatever
      its status. */
  function GetGroupRequests(groups: seq<Group>, requests: seq<JoinRequest>, groupId: int, ownerId: int)
    : (r: Result<seq<JoinRequest>>)
    ensures FindOwnedGroup(groups, groupId, ownerId).None? ==> r == Err(Plain(NotGroupOwner))
    ensures FindOwnedGroup(groups, groupId, ownerId).Some? && (forall q :: q in requests ==> q.groupId != groupId) ==>
              r == Err(Plain(NoRequests))
    ensures r.Ok? ==> r.value != [] && forall q :: q in r.value <==> q in requests && q.groupId == groupId
    ensures r.Ok? <==> FindOwnedGroup(groups, groupId, ownerId).Some? && exists q :: q in requests && q.groupId == groupId
  {
    if FindOwnedGroup(groups, groupId, ownerId).None? then Err(Plain(NotGroupOwner))
    else
      var groupRequests := RequestsOf(requests, groupId);
      if |groupRequests| == 0 then Err(Plain(NoRequests))
      else assert groupRequests[0] in groupRequests; Ok(groupRequests)
  }

  /** Page arithmetic of `searchGroup`: the offset of page `pageNumber`
      (counted from 1) of pages of `pageSize` rows. */
  function Offset(pageSize: int, pageNumber: int): int {
    (pageNumber - 1) * pageSize
  }

  /** The defaults 20 and 1 give the first 20 rows, and consecutive pages
      start `pageSize` rows apart. */
  lemma OffsetFacts(pageSize: int, pageNumber: int)
    ensures Offset(20, 1) == 0
    ensures Offset(pageSize, 1) == 0
    ensures Offset(pageSize, pageNumber + 1) == Offset(pageSize, pageNumber) + pageSize
  {
  }

  /** LIMIT/OFFSET over a result: the storage rejects a negative value;
      otherwise at most `limit` rows, the ones starting at position `offset`. */
  function Page<T>(rows: seq<T>, limit: int, offset: int): (r: Result<seq<T>>)
    ensures r.Err? <==> limit < 0 || offset < 0
    ensures r.Err? ==> r.error == BadQuery
    ensures r.Ok? ==> |r.value| <= limit
    ensures r.Ok? ==> |r.value| == if offset + limit <= |rows| then limit
                                   else if offset <= |rows| then |rows| - offset else 0
    ensures r.Ok? ==> forall i :: 0 <= i < |r.value| ==> offset + i < |rows| && r.value[i] == rows[offset + i]
  {
    if limit < 0 || offset < 0 then Err(BadQuery)
    else if offset >= |rows| then Ok([])
    else if offset + limit <= |rows| then Ok(rows[offset..offset + limit])
    else Ok(rows[offset..])
  }

  /** Two consecutive pages of the same size are adjacent slices of the
      result: together they are the `2 * pageSize` rows from the first one's
      offset. */
  lemma {:induction false} ConsecutivePagesTile<T>(rows: seq<T>, pageSize: int, pageNumber: int)
    requires pageSize >= 0 && pageNumber >= 1
    requires Offset(pageSize, pageNumber + 1) + pageSize <= |rows|
    ensures Page(rows, pageSize, Offset(pageSize, pageNumber)).Ok?
    ensures Page(rows, pageSize, Offset(pageSize, pageNumber + 1)).Ok?
    ensures Page(rows, pageSize, Offset(pageSize, pageNumber)).value +
            Page(rows, pageSize, Offset(pageSize, pageNumber + 1)).value ==
            rows[Offset(pageSize, pageNumber)..Offset(pageSize, pageNumber) + 2 * pageSize]
  {
    var o := Offset(pageSize, pageNumber);
    OffsetFacts(pageSize, pageNumber);
    assert o >= 0 by {
      assert pageNumber - 1 >= 0;
      assert (pageNumber - 1) * pageSize >= 0;
    }
    assert rows[o..o + 2 * pageSize] == rows[o..o + pageSize] + rows[o + pageSize..o + 2 * pageSize];
  }

  /** The `where` object of `searchGroup`: an optional name pattern and an
      optional genre list. */
  datatype Where = Where(name: Option<string>, genres: Option<seq<string>>)

  /** `sub` occurs in `s` at position `i`. */
  predicate OccursAt(sub: string, s: string, i: int) {
    0 <= i && i + |sub| <= |s| && s[i..i + |sub|] == sub
  }

  /** `LIKE '%sub%'`: `sub` occurs somewhere in `s`. */
  predicate Like(s: string, sub: string) {
    exists i :: 0 <= i <= |s| - |sub| && OccursAt(sub, s, i)
  }

  /** A group satisfies the where clause. How the storage compares a JSON
      genre column `IN` a list is `genreIn`, a parameter. */
  predicate Matches(g: Group, w: Where, genreIn: (seq<string>, seq<string>) -> bool) {
    && (w.name.Some? ==> Like(g.name, w.name.value))
    && (w.genres.Some? ==> genreIn(g.genres, w.genres.value))
  }

  /** `Group.findAll({ where })` without paging. */
  function SearchResults(groups: seq<Group>, w: Where, genreIn: (seq<string>, seq<string>) -> bool): seq<Group> {
    Filter(groups, (g: Group) => Matches(g, w, genreIn))
  }

  /** `searchGroup`: `pageSize` and `pageNumber` default to 20 and 1; an empty
      name or genre list adds no condition. */
  method SearchGroup(db: Database, pageSize: Option<int>, pageNumber: Option<int>, name: string,
                     genres: seq<string>, genreIn: (seq<string>, seq<string>) -> bool)
    returns (r: Result<seq<Group>>)
    ensures
      var limit := if pageSize.Some? then pageSize.value else 20;
      var number := if pageNumber.Some? then pageNumber.value else 1;
      var w := Where(if name != "" then Some(name) else None, if genres != [] then Some(genres) else None);
      && r == Page(SearchResults(db.groups, w, genreIn), limit, Offset(limit, number))
      && (r.Ok? ==> |r.value| <= limit)
      && (forall g :: r.Ok? && g in r.value ==> g in db.groups && Matches(g, w, genreIn))
      && (pageSize.None? && pageNumber.None? ==> r.Ok? && |r.value| <= 20)
  {
    var limit := if pageSize.Some? then pageSize.value else 20;
    var number := if pageNumber.Some? then pageNumber.value else 1;
    var offset := (number - 1) * limit;
    var where := Where(None, None);
    if name != "" {
      where := where.(name := Some(name));
    }
    if |genres| > 0 {
      where := where.(genres := Some(genres));
    }
    var all := SearchResults(db.groups, where, genreIn);
    r := Page(all, limit, offset);
    if r.Ok? {
      forall g | g in r.value ensures g in db.groups && Matches(g, where, genreIn) {
        var i :| 0 <= i < |r.value| && r.value[i] == g;
        assert all[offset + i] in all;
      }
    }
  }

  /** `joinGroup`: an existing request for the pair (whatever its status)
      fails first, then the owner asking to join their own group fails;
      otherwise one "Received" request is inserted and echoed. */
  method JoinGroup(db: Database, groupId: int, userId: int, now: int) returns (r: Result<JoinResponse>)
    requires db.Valid()
    modifies db`requests
    ensures db.Valid()
    ensures FindRequest(old(db.requests), groupId, userId).Some? ==>
              r == Err(Plain(RequestExists)) && db.requests == old(db.requests)
    ensures FindRequest(old(db.requests), groupId, userId).None? && FindOwnedGroup(db.groups, groupId, userId).Some? ==>
              r == Err(Plain(OwnerCannotJoin)) && db.requests == old(db.requests)
    ensures FindRequest(old(db.requests), groupId, userId).None? && FindOwnedGroup(db.groups, groupId, userId).None? ==>
              && db.requests == old(db.requests) + [JoinRequest(userId, groupId, now, Received)]
              && r == Ok(JoinResponse(userId, groupId, now, Received))
  {
    var request := FindRequest(db.requests, groupId, userId);
    if request.Some? {
      return Err(Plain(RequestExists));
    }
    var owner := FindOwnedGroup(db.groups, groupId, userId);
    if owner.Some? {
      return Err(Plain(OwnerCannotJoin));
    }
    var newRequest := JoinRequest(userId, groupId, now, Received);
    forall i | 0 <= i < |db.requests| ensures RequestKey(db.requests[i]) != RequestKey(newRequest) {
      assert db.requests[i] in db.requests;
    }
    AppendFreshKey(db.requests, RequestKey, newRequest);
    db.requests := db.requests + [newRequest];
    return Ok(JoinResponse(newRequest.userId, newRequest.groupId, newRequest.sentAt, newRequest.status));
  }

  /** `GroupRequest.update({ status }, { where: { group_id, user_id } })`:
      every row of the pair gets `status`; other rows are untouched. */
  function SetStatus(requests: seq<JoinRequest>, groupId: int, userId: int, status: RequestStatus)
    : (r: seq<JoinRequest>)
    ensures |r| == |requests|
    ensures forall i :: 0 <= i < |r| ==>
              RequestKey(r[i]) == RequestKey(requests[i]) && r[i].sentAt == requests[i].sentAt
    ensures forall i :: 0 <= i < |r| && RequestKey(requests[i]) != (userId, groupId) ==> r[i] == requests[i]
    ensures forall i :: 0 <= i < |r| && RequestKey(requests[i]) == (userId, groupId) ==> r[i].status == status
  {
    seq(|requests|, i requires 0 <= i < |requests| =>
      if requests[i].groupId == groupId && requests[i].userId == userId
      then requests[i].(status := status) else requests[i])
  }

  /** After the update, the table still has one row per pair, the pair's row
      has the new status and nothing else about it changed, and a lookup of
      any other pair finds what it found before. */
  lemma SetStatusEffect(requests: seq<JoinRequest>, groupId: int, userId: int, status: RequestStatus)
    requires UniqueBy(requests, RequestKey)
    requires FindRequest(requests, groupId, userId).Some?
    ensures UniqueBy(SetStatus(requests, groupId, userId, status), RequestKey)
    ensures FindRequest(SetStatus(requests, groupId, userId, status), groupId, userId) ==
              Some(FindRequest(requests, groupId, userId).value.(status := status))
    ensures forall g, u :: (u, g) != (userId, groupId) ==>
              FindRequest(SetStatus(requests, groupId, userId, status), g, u) == FindRequest(requests, g, u)
  {
    var r := SetStatus(requests, groupId, userId, status);
    assert UniqueBy(r, RequestKey) by {
      forall i, j | 0 <= i < j < |r| ensures RequestKey(r[i]) != RequestKey(r[j]) {
        assert RequestKey(requests[i]) != RequestKey(requests[j]);
      }
    }
    var old_ := FindRequest(requests, groupId, userId).value;
    var k :| 0 <= k < |requests| && requests[k] == old_;
    var found := FindRequest(r, groupId, userId);
    assert r[k] in r && r[k].groupId == groupId && r[k].userId == userId;
    var j :| 0 <= j < |r| && r[j] == found.value;
    assert RequestKey(r[j]) == RequestKey(r[k]);
    assert j == k;
    forall g, u | (u, g) != (userId, groupId)
      ensures FindRequest(r, g, u) == FindRequest(requests, g, u)
    {
      SameRowsForOtherPair(requests, groupId, userId, status, g, u);
    }
  }

  /** The rows of another pair are the same before and after the update. */
  lemma {:induction false} SameRowsForOtherPair(requests: seq<JoinRequest>, groupId: int, userId: int,
                                                status: RequestStatus, g: int, u: int)
    requires (u, g) != (userId, groupId)
    ensures FindRequest(SetStatus(requests, groupId, userId, status), g, u) == FindRequest(requests, g, u)
  {
    var p := (q: JoinRequest) => q.groupId == g && q.userId == u;
    assert Filter(SetStatus(requests, groupId, userId, status), p) == Filter(requests, p) by {
      FilterOtherPair(requests, groupId, userId, status, g, u);
    }
  }

  lemma {:induction false} FilterOtherPair(requests: seq<JoinRequest>, groupId: int, userId: int,
                                           status: RequestStatus, g: int, u: int)
    requires (u, g) != (userId, groupId)
    ensures Filter(SetStatus(requests, groupId, userId, status), (q: JoinRequest) => q.groupId == g && q.userId == u) ==
            Filter(requests, (q: JoinRequest) => q.groupId == g && q.userId == u)
  {
    var p := (q: JoinRequest) => q.groupId == g && q.userId == u;
    var r := SetStatus(requests, groupId, userId, status);
    if requests != [] {
      assert r[1..] == SetStatus(requests[1..], groupId, userId, status);
      FilterOtherPair(requests[1..], groupId, userId, status, g, u);
      assert p(r[0]) == p(requests[0]);
      assert p(r[0]) ==> r[0] == requests[0];
    }
  }

  /** A MEMBER row for an existing group and a pair that has no membership
      row keeps the group invariants, the through-table's key included. */
  lemma AddMemberKeepsKey(groups: seq<Group>, members: seq<Membership>, next: int, g: Group, m: Membership)
    requires GroupsValid(groups, members, next)
    requires g in groups && m.groupId == g.id && m.role == Member
    requires FindMembership(members, m.groupId, m.userId).None?
    ensures GroupsValid(groups, members + [m], next)
  {
    forall i | 0 <= i < |members| ensures MemberKey(members[i]) != MemberKey(m) {
      assert members[i] in members;
    }
    AppendFreshKey(members, MemberKey, m);
    var k :| 0 <= k < |groups| && groups[k] == g;
  }

  /** `acceptJoinRequest`: fails unless `ownerId` owns the group, then fails
      unless a request for the pair exists (its status is not looked at).
      Otherwise the request becomes "Accepted" and a MEMBER row is added; when
      the user already has a membership row for the group, the status update
      stays applied and the insert is refused by the table's composite key. */
  method AcceptJoinRequest(db: Database, groupId: int, userId: int, ownerId: int)
    returns (r: Result<UpdateRequestResponse>)
    requires db.Valid()
    modifies db`requests, db`members
    ensures db.Valid()
    ensures FindOwnedGroup(db.groups, groupId, ownerId).None? ==>
              r == Err(Plain(NotGroupOwner)) && unchanged(db)
    ensures FindOwnedGroup(db.groups, groupId, ownerId).Some? && FindRequest(old(db.requests), groupId, userId).None? ==>
              r == Err(Plain(RequestNotFound)) && unchanged(db)
    ensures FindOwnedGroup(db.groups, groupId, ownerId).Some? && FindRequest(old(db.requests), groupId, userId).Some? ==>
              && db.requests == SetStatus(old(db.requests), groupId, userId, Accepted)
              && (FindMembership(old(db.members), groupId, userId).Some? ==>
                    db.members == old(db.members) && r == Err(DuplicateKey))
              && (FindMembership(old(db.members), groupId, userId).None? ==>
                    && db.members == old(db.members) + [Membership(groupId, userId, Member)]
                    && r == Ok(UpdateRequestResponse(groupId, userId, Member)))
  {
    var owner := FindOwnedGroup(db.groups, groupId, ownerId);
    if owner.None? {
      return Err(Plain(NotGroupOwner));
    }
    var request := FindRequest(db.requests, groupId, userId);
    if request.None? {
      return Err(Plain(RequestNotFound));
    }
    SetStatusEffect(db.requests, groupId, userId, Accepted);
    db.requests := SetStatus(db.requests, groupId, userId, Accepted);
    if FindMembership(db.members, groupId, userId).Some? {
      return Err(DuplicateKey);
    }
    var newGroupMember := Membership(groupId, userId, Member);
    AddMemberKeepsKey(db.groups, db.members, db.nextGroupId, owner.value, newGroupMember);
    db.members := db.members + [newGroupMember];
    return Ok(UpdateRequestResponse(newGroupMember.groupId, newGroupMember.userId, newGroupMember.role));
  }

  /** `denyJoinRequest`: the same two checks in the same order; then the
      request becomes "Denied" and the membership table is untouched. */
  method DenyJoinRequest(db: Database, groupId: int, userId: int, ownerId: int) returns (r: Result<()>)
    requires db.Valid()
    modifies db`requests
    ensures db.Valid()
    ensures FindOwnedGroup(db.groups, groupId, ownerId).None? ==>
              r == Err(Plain(NotGroupOwner)) && unchanged(db)
    ensures FindOwnedGroup(db.groups, groupId, ownerId).Some? && FindRequest(old(db.requests), groupId, userId).None? ==>
              r == Err(Plain(RequestNotFound)) && unchanged(db)
    ensures FindOwnedGroup(db.groups, groupId, ownerId).Some? && FindRequest(old(db.requests), groupId, userId).Some? ==>
              db.requests == SetStatus(old(db.requests), groupId, userId, Denied) && r == Ok(())
  {
    var owner := FindOwnedGroup(db.groups, groupId, ownerId);
    if owner.None? {
      return Err(Plain(NotGroupOwner));
    }
    var request := FindRequest(db.requests, groupId, userId);
    if request.None? {
      return Err(Plain(RequestNotFound));
    }
    SetStatusEffect(db.requests, groupId, userId, Denied);
    db.requests := SetStatus(db.requests, groupId, userId, Denied);
    return Ok(());
  }
}

=== FILE: message_service.dfy ===
/** The messaging service. A thread is the single conversation between one
    user and one group; a message in it is sent either by the user side
    (`senderUserId` set) or by the group side (`senderGroupId` set). */
module MessageService {
  import opened Common
  import opened Seqs
  import opened Tables

  /** `senderType`: "USER" or "GROUP". */
  datatype SenderType = UserSender | GroupSender

  /** The `sender` / `sentBy` of a response: a user or a group. */
  datatype Party = UserParty(user: User) | GroupParty(group: Group)

  /** `MessageResponse`. */
  datatype MessageResponse = MessageResponse(
    id: int,
    threadId: int,
    content: string,
    senderType: SenderType,
    sender: Option<Party>,
    sentBy: Option<Party>,
    sentAt: int)

  /** An element of `getUserThreads`' result. */
  datatype UserThreadSummary = UserThreadSummary(
    id: int,
    group: Option<Group>,
    updatedAt: int,
    participant: Option<User>,
    lastMessage: Option<string>,
    lastMessageTimestamp: Option<int>)

  /** An element of `getGroupThreads`' result. */
  datatype GroupThreadSummary = GroupThreadSummary(
    id: int,
    user: Option<User>,
    participant: Option<User>,
    lastMessage: Option<string>,
    updatedAt: int)

  /** `Thread.findOrCreate({ where: { userId, groupId } })`: the pair's
      thread if there is one, otherwise a new one. Either way the pair then has
      exactly that thread. */
  method FindOrCreateThread(db: Database, userId: int, groupId: int, now: int) returns (thread: Thread)
    requires db.Valid()
    modifies db`threads, db`nextThreadId
    ensures db.Valid()
    ensures FindThreadByPair(old(db.threads), userId, groupId).Some? ==>
              && thread == FindThreadByPair(old(db.threads), userId, groupId).value
              && db.threads == old(db.threads) && db.nextThreadId == old(db.nextThreadId)
    ensures FindThreadByPair(old(db.threads), userId, groupId).None? ==>
              && thread == Thread(old(db.nextThreadId), userId, groupId, now, now)
              && db.threads == old(db.threads) + [thread] && db.nextThreadId == old(db.nextThreadId) + 1
    ensures FindThreadByPair(db.threads, userId, groupId) == Some(thread)
    ensures thread.userId == userId && thread.groupId == groupId
  {
    var found := FindThreadByPair(db.threads, userId, groupId);
    if found.Some? {
      thread := found.value;
      UniqueRowIsFound(db.threads, ThreadPair, thread);
    } else {
      thread := Thread(db.nextThreadId, userId, groupId, now, now);
      forall i | 0 <= i < |db.threads| ensures ThreadPair(db.threads[i]) != ThreadPair(thread) {
        assert db.threads[i] in db.threads;
      }
      AppendFreshKey(db.threads, ThreadPair, thread);
      AppendNextId(db.threads, ThreadId, db.nextThreadId, thread);
      db.threads := db.threads + [thread];
      db.nextThreadId := db.nextThreadId + 1;
      UniqueRowIsFound(db.threads, ThreadPair, thread);
    }
  }

  /** `Message.create`: appends a row with the next message id. */
  method AppendMessage(db: Database, threadId: int, senderUserId: Option<int>, senderGroupId: Option<int>,
                       content: string, now: int) returns (message: Message)
    requires db.Valid()
    requires senderUserId.Some? != senderGroupId.Some?
    modifies db`messages, db`nextMessageId
    ensures db.Valid()
    ensures message == Message(old(db.nextMessageId), threadId, senderUserId, senderGroupId, content, now)
    ensures db.messages == old(db.messages) + [message]
    ensures db.nextMessageId == old(db.nextMessageId) + 1
  {
    message := Message(db.nextMessageId, threadId, senderUserId, senderGroupId, content, now);
    AppendNextId(db.messages, MessageId, db.nextMessageId, message);
    db.messages := db.messages + [message];
    db.nextMessageId := db.nextMessageId + 1;
  }

  /** `createGroupMessage`: find or create the thread of (userId, groupId),
      store the message as sent by the user side, then look the sender up.
      There is no membership check; a missing sender fails after the message
      is stored. */
  method CreateGroupMessage(db: Database, userId: int, groupId: int, content: string, now: int)
    returns (r: Result<MessageResponse>)
    requires db.Valid()
    modifies db`threads, db`messages, db`nextThreadId, db`nextMessageId
    ensures db.Valid()
    ensures
      var existing := FindThreadByPair(old(db.threads), userId, groupId);
      var thread := if existing.Some? then existing.value
                    else Thread(old(db.nextThreadId), userId, groupId, now, now);
      var message := Message(old(db.nextMessageId), thread.id, Some(userId), None, content, now);
      && db.threads == (if existing.Some? then old(db.threads) else old(db.threads) + [thread])
      && db.nextThreadId == (if existing.Some? then old(db.nextThreadId) else old(db.nextThreadId) + 1)
      && FindThreadByPair(db.threads, userId, groupId) == Some(thread)
      && db.messages == old(db.messages) + [message]
      && db.nextMessageId == old(db.nextMessageId) + 1
      && (FindUser(db.users, userId).None? ==> r == Err(UserNotFound))
      && (FindUser(db.users, userId).Some? ==>
            var sender := Some(UserParty(FindUser(db.users, userId).value));
            r == Ok(MessageResponse(message.id, thread.id, content, UserSender, sender, sender, now)))
  {
    var thread := FindOrCreateThread(db, userId, groupId, now);
    var message := AppendMessage(db, thread.id, Some(userId), None, content, now);

    var sender := FindUser(db.users, userId);
    if sender.None? {
      return Err(UserNotFound);
    }
    var party := Some(UserParty(sender.value));
    return Ok(MessageResponse(message.id, thread.id, message.content, UserSender, party, party, message.createdAt));
  }

  /** Find-or-create is idempotent: two messages from the same user to the
      same group land in the same thread, and at most one thread is created. */
  method SendTwice(db: Database, userId: int, groupId: int, first: string, second: string, now: int)
    returns (r1: Result<MessageResponse>, r2: Result<MessageResponse>)
    requires db.Valid()
    modifies db`threads, db`messages, db`nextThreadId, db`nextMessageId
    ensures db.Valid()
    ensures |db.threads| <= |old(db.threads)| + 1
    ensures FindThreadByPair(db.threads, userId, groupId).Some?
    ensures r1.Ok? ==> r2.Ok? && r1.value.threadId == r2.value.threadId
    ensures r1.Ok? ==> r1.value.threadId == FindThreadByPair(db.threads, userId, groupId).value.id
  {
    r1 := CreateGroupMessage(db, userId, groupId, first, now);
    r2 := CreateGroupMessage(db, userId, groupId, second, now);
  }

  /** `createThreadReply`: an unknown thread fails first. Sending as the group
      needs a membership row of the caller in the thread's group and the
      group's row; sending as the user needs the caller to be the thread's
      user and to exist. Only then is the message stored; the caller is then
      looked up as `sentBy`, and a missing caller fails after the store. */
  method CreateThreadReply(db: Database, threadId: int, userId: int, content: string, sendAsGroup: bool, now: int)
    returns (r: Result<MessageResponse>)
    requires db.Valid()
    modifies db`messages, db`nextMessageId
    ensures db.Valid()
    ensures FindThread(db.threads, threadId).None? ==> r == Err(NotFound) && unchanged(db)
    ensures FindThread(db.threads, threadId).Some? ==>
      var thread := FindThread(db.threads, threadId).value;
      var member := FindMembership(db.members, thread.groupId, userId);
      var group := FindGroup(db.groups, thread.groupId);
      var user := FindUser(db.users, userId);
      var allowed := if sendAsGroup then member.Some? && group.Some? else userId == thread.userId && user.Some?;
      && (sendAsGroup && member.None? ==> r == Err(Forbidden) && unchanged(db))
      && (sendAsGroup && member.Some? && group.None? ==> r == Err(Plain(GroupNotFound)) && unchanged(db))
      && (!sendAsGroup && userId != thread.userId ==> r == Err(Forbidden) && unchanged(db))
      && (!sendAsGroup && userId == thread.userId && user.None? ==> r == Err(UserNotFound) && unchanged(db))
      && (allowed ==>
            var message := Message(old(db.nextMessageId), threadId,
                                   if sendAsGroup then None else Some(userId),
                                   if sendAsGroup then Some(thread.groupId) else None,
                                   content, now);
            var sender := if sendAsGroup then GroupParty(group.value) else UserParty(user.value);
            && db.messages == old(db.messages) + [message]
            && db.nextMessageId == old(db.nextMessageId) + 1
            && (user.None? ==> r == Err(UserNotFound))
            && (user.Some? ==>
                  r == Ok(MessageResponse(message.id, thread.id, content,
                                          if sendAsGroup then GroupSender else UserSender,
                                          Some(sender), Some(UserParty(user.value)), now))))
  {
    var found := FindThread(db.threads, threadId);
    if found.None? {
      return Err(NotFound);
    }
    var thread := found.value;

    var senderGroupId: Option<int> := None;
    var senderUserId: Option<int> := None;
    var sender: Party;

    if sendAsGroup {
      var membership := FindMembership(db.members, thread.groupId, userId);
      if membership.None? {
        return Err(Forbidden);
      }
      senderGroupId := Some(thread.groupId);
      var group := FindGroup(db.groups, thread.groupId);
      if group.None? {
        return Err(Plain(GroupNotFound));
      }
      sender := GroupParty(group.value);
    } else {
      if userId != thread.userId {
        return Err(Forbidden);
      }
      senderUserId := Some(userId);
      var user := FindUser(db.users, userId);
      if user.None? {
        return Err(UserNotFound);
      }
      sender := UserParty(user.value);
    }

    var message := AppendMessage(db, threadId, senderUserId, senderGroupId, content, now);

    var sentBy := FindUser(db.users, userId);
    if sentBy.None? {
      return Err(UserNotFound);
    }
    return Ok(MessageResponse(message.id, thread.id, message.content,
                              if sendAsGroup then GroupSender else UserSender,
                              Some(sender), Some(UserParty(sentBy.value)), message.createdAt));
  }

  /** Messages in ascending `createdAt` order. */
  ghost predicate SortedByTime(ms: seq<Message>) {
    forall i, j :: 0 <= i < j < |ms| ==> ms[i].createdAt <= ms[j].createdAt
  }

  /** Inserts `m` into `sorted` after every message not newer than it. */
  function InsertByTime(sorted: seq<Message>, m: Message): (r: seq<Message>)
    ensures |r| == |sorted| + 1
    ensures multiset(r) == multiset(sorted) + multiset{m}
  {
    if sorted == [] || sorted[|sorted| - 1].createdAt <= m.createdAt then
      sorted + [m]
    else
      assert sorted == sorted[..|sorted| - 1] + [sorted[|sorted| - 1]];
      InsertByTime(sorted[..|sorted| - 1], m) + [sorted[|sorted| - 1]]
  }

  /** Inserting into a sorted listing keeps it sorted. */
  lemma {:induction false} InsertKeepsSorted(sorted: seq<Message>, m: Message)
    requires SortedByTime(sorted)
    ensures SortedByTime(InsertByTime(sorted, m))
  {
    if sorted != [] && sorted[|sorted| - 1].createdAt > m.createdAt {
      var init, last := sorted[..|sorted| - 1], sorted[|sorted| - 1];
      InsertKeepsSorted(init, m);
      var s := InsertByTime(init, m);
      var r := s + [last];
      forall x | x in s ensures x.createdAt <= last.createdAt {
        assert x in multiset(s);
        if x != m {
          assert x in multiset(init);
          var k :| 0 <= k < |init| && init[k] == x;
          assert sorted[k] == x;
        }
      }
      forall i, j | 0 <= i < j < |r| ensures r[i].createdAt <= r[j].createdAt {
        if j == |r| - 1 { assert r[i] == s[i] && s[i] in s; }
      }
    }
  }

  /** `order: [["createdAt", "ASC"]]`: the messages sorted by time, a
      permutation of the input; messages with equal times keep their storage
      order. */
  function SortByTime(ms: seq<Message>): (r: seq<Message>)
    ensures |r| == |ms|
    ensures multiset(r) == multiset(ms)
    ensures SortedByTime(r)
  {
    if ms == [] then []
    else
      assert ms == ms[..|ms| - 1] + [ms[|ms| - 1]];
      InsertKeepsSorted(SortByTime(ms[..|ms| - 1]), ms[|ms| - 1]);
      InsertByTime(SortByTime(ms[..|ms| - 1]), ms[|ms| - 1])
  }

  /** `Message.findAll({ where: { threadId } })`. */
  function MessagesOf(messages: seq<Message>, threadId: int): seq<Message> {
    Filter(messages, (m: Message) => m.threadId == threadId)
  }

  /** A message no older than every message of its thread is the last one of
      the thread's ordered listing, right after the ones listed before it. */
  lemma SentMessageIsLast(messages: seq<Message>, m: Message)
    requires forall x :: x in messages && x.threadId == m.threadId ==> x.createdAt <= m.createdAt
    ensures SortByTime(MessagesOf(messages + [m], m.threadId)) ==
            SortByTime(MessagesOf(messages, m.threadId)) + [m]
  {
    var before := MessagesOf(messages, m.threadId);
    assert MessagesOf(messages + [m], m.threadId) == before + [m] by {
      FilterAppend(messages, [m], (x: Message) => x.threadId == m.threadId);
    }
    assert SortByTime(before + [m]) == InsertByTime(SortByTime(before), m) by {
      assert (before + [m])[..|before|] == before;
    }
    var sorted := SortByTime(before);
    forall x | x in sorted ensures x.createdAt <= m.createdAt {
      assert x in multiset(sorted);
      assert x in before;
    }
    if sorted != [] {
      assert sorted[|sorted| - 1] in sorted;
    }
  }

  /** The newest message (`order: createdAt DESC, limit: 1`). */
  function Newest(ms: seq<Message>): (r: Option<Message>)
    ensures r.None? <==> ms == []
    ensures r.Some? ==> r.value in ms && forall x :: x in ms ==> x.createdAt <= r.value.createdAt
  {
    var sorted := SortByTime(ms);
    if sorted == [] then None
    else
      var last := sorted[|sorted| - 1];
      assert last in multiset(sorted);
      assert forall x :: x in ms ==> x.createdAt <= last.createdAt by {
        forall x | x in ms ensures x.createdAt <= last.createdAt {
          assert x in multiset(sorted);
          var k :| 0 <= k < |sorted| && sorted[k] == x;
        }
      }
      Some(last)
  }

  /** One element of a message listing: `senderType` is "USER" exactly when
      the row's sender user is found, and `sender` is that user; otherwise
      `senderType` is "GROUP" and `sender` is the sender group when it is
      found, else nothing. */
  function View(m: Message, users: seq<User>, groups: seq<Group>): (v: MessageResponse)
    ensures v.id == m.id && v.threadId == m.threadId && v.content == m.content && v.sentAt == m.createdAt
    ensures v.senderType == UserSender <==> m.senderUserId.Some? && FindUser(users, m.senderUserId.value).Some?
    ensures v.senderType == UserSender ==>
              && v.sender == Some(UserParty(FindUser(users, m.senderUserId.value).value))
              && v.sender.value.user in users && v.sender.value.user.id == m.senderUserId.value
    ensures v.senderType == GroupSender ==>
              (v.sender.Some? <==> m.senderGroupId.Some? && FindGroup(groups, m.senderGroupId.value).Some?)
    ensures v.senderType == GroupSender && v.sender.Some? ==>
              && v.sender == Some(GroupParty(FindGroup(groups, m.senderGroupId.value).value))
              && v.sender.value.group in groups && v.sender.value.group.id == m.senderGroupId.value
    ensures v.sentBy == v.sender
  {
    var senderUser := if m.senderUserId.Some? then FindUser(users, m.senderUserId.value) else None;
    var senderGroup := if m.senderGroupId.Some? then FindGroup(groups, m.senderGroupId.value) else None;
    var sender := if senderUser.Some? then Some(UserParty(senderUser.value))
                  else if senderGroup.Some? then Some(GroupParty(senderGroup.value))
                  else None;
    MessageResponse(m.id, m.threadId, m.content,
                    if senderUser.Some? then UserSender else GroupSender,
                    sender, sender, m.createdAt)
  }

  /** `getThreadMessages`: an unknown thread is NotFound; anyone but the
      thread's user (a member of the group included) is Forbidden; otherwise
      exactly the thread's messages, oldest first. */
  function GetThreadMessages(threads: seq<Thread>, messages: seq<Message>, users: seq<User>, groups: seq<Group>,
                             threadId: int, userId: int): (r: Result<seq<MessageResponse>>)
    ensures FindThread(threads, threadId).None? ==> r == Err(NotFound)
    ensures FindThread(threads, threadId).Some? && FindThread(threads, threadId).value.userId != userId ==>
              r == Err(Forbidden)
    ensures r.Ok? <==> FindThread(threads, threadId).Some? && FindThread(threads, threadId).value.userId == userId
    ensures r.Ok? ==>
      var sorted := SortByTime(MessagesOf(messages, threadId));
      && |r.value| == |MessagesOf(messages, threadId)|
      && (forall i :: 0 <= i < |r.value| ==> r.value[i] == View(sorted[i], users, groups))
      && (forall i :: 0 <= i < |r.value| ==> r.value[i].threadId == threadId)
      && (forall i, j :: 0 <= i < j < |r.value| ==> r.value[i].sentAt <= r.value[j].sentAt)
  {
    match FindThread(threads, threadId)
    case None => Err(NotFound)
    case Some(thread) =>
      if thread.userId != userId then Err(Forbidden)
      else
        var sorted := SortByTime(MessagesOf(messages, threadId));
        assert forall i :: 0 <= i < |sorted| ==> sorted[i].threadId == threadId by {
          forall i | 0 <= i < |sorted| ensures sorted[i].threadId == threadId {
            assert sorted[i] in multiset(sorted);
            assert sorted[i] in MessagesOf(messages, threadId);
          }
        }
        Ok(seq(|sorted|, i requires 0 <= i < |sorted| => View(sorted[i], users, groups)))
  }

  /** `Thread.findAll({ where: { userId } })`. */
  function ThreadsOfUser(threads: seq<Thread>, userId: int): seq<Thread> {
    Filter(threads, (t: Thread) => t.userId == userId)
  }

  /** `Thread.findAll({ where: { groupId } })`. */
  function ThreadsOfGroup(threads: seq<Thread>, groupId: int): seq<Thread> {
    Filter(threads, (t: Thread) => t.groupId == groupId)
  }

  /** One element of `getUserThreads`: `content || null` turns an empty last
      message into null; the timestamp is null only without messages. */
  function UserSummary(t: Thread, messages: seq<Message>, users: seq<User>, groups: seq<Group>)
    : (s: UserThreadSummary)
    ensures s.id == t.id
    ensures s.group == FindGroup(groups, t.groupId) && s.participant == FindUser(users, t.userId)
    ensures s.lastMessageTimestamp.None? <==> MessagesOf(messages, t.id) == []
    ensures s.lastMessage.None? <==> MessagesOf(messages, t.id) == [] || Newest(MessagesOf(messages, t.id)).value.content == ""
    ensures s.lastMessage.Some? ==> IsNewestContent(MessagesOf(messages, t.id), s.lastMessage.value)
  {
    var newest := Newest(MessagesOf(messages, t.id));
    UserThreadSummary(
      t.id, FindGroup(groups, t.groupId), t.updatedAt, FindUser(users, t.userId),
      if newest.Some? && newest.value.content != "" then Some(newest.value.content) else None,
      if newest.Some? then Some(newest.value.createdAt) else None)
  }

  /** `content` is the content of a message of `ms` that no message of `ms`
      is newer than. */
  ghost predicate IsNewestContent(ms: seq<Message>, content: string) {
    exists m :: m in ms && m.content == content && forall x :: x in ms ==> x.createdAt <= m.createdAt
  }

  /** `getUserThreads`: one summary per thread of the user, in storage order. */
  function GetUserThreads(threads: seq<Thread>, messages: seq<Message>, users: seq<User>, groups: seq<Group>,
                          userId: int): (r: seq<UserThreadSummary>)
    ensures |r| == |ThreadsOfUser(threads, userId)|
    ensures forall i :: 0 <= i < |r| ==> r[i] == UserSummary(ThreadsOfUser(threads, userId)[i], messages, users, groups)
  {
    var ts := ThreadsOfUser(threads, userId);
    seq(|ts|, i requires 0 <= i < |ts| => UserSummary(ts[i], messages, users, groups))
  }

  /** Some thread of `threads` with identifier `id` satisfies `belongs`. */
  ghost predicate HasThread(threads: seq<Thread>, id: int, belongs: Thread -> bool) {
    exists t :: t in threads && belongs(t) && t.id == id
  }

  /** `getUserThreads` lists exactly the user's threads: every summary is of a
      thread of the user, and every thread of the user has a summary. */
  lemma {:induction false} UserThreadsExact(threads: seq<Thread>, messages: seq<Message>, users: seq<User>,
                                            groups: seq<Group>, userId: int, r: seq<UserThreadSummary>)
    requires GetUserThreads(threads, messages, users, groups, userId) == r
    ensures forall i :: 0 <= i < |r| ==> HasThread(threads, r[i].id, (t: Thread) => t.userId == userId)
    ensures forall t :: t in threads && t.userId == userId ==> exists i :: 0 <= i < |r| && r[i].id == t.id
  {
    var ts := ThreadsOfUser(threads, userId);
    forall i | 0 <= i < |r| ensures HasThread(threads, r[i].id, (t: Thread) => t.userId == userId) {
      assert ts[i] in ts;
    }
    forall t | t in threads && t.userId == userId ensures exists i :: 0 <= i < |r| && r[i].id == t.id {
      assert t in ts;
      var i :| 0 <= i < |ts| && ts[i] == t;
      assert r[i].id == t.id;
    }
  }

  /** One element of `getGroupThreads`: the last message's content as stored,
      absent only when the thread has no messages. */
  function GroupSummary(t: Thread, messages: seq<Message>, users: seq<User>): (s: GroupThreadSummary)
    ensures s.id == t.id
    ensures s.user == FindUser(users, t.userId) && s.participant == s.user
    ensures s.lastMessage.None? <==> MessagesOf(messages, t.id) == []
    ensures s.lastMessage.Some? ==> IsNewestContent(MessagesOf(messages, t.id), s.lastMessage.value)
  {
    var newest := Newest(MessagesOf(messages, t.id));
    var user := FindUser(users, t.userId);
    GroupThreadSummary(t.id, user, user, if newest.Some? then Some(newest.value.content) else None, t.updatedAt)
  }

  /** `getGroupThreads`: Forbidden without a membership row in the group;
      otherwise one summary per thread of the group, in storage order. */
  function GetGroupThreads(members: seq<Membership>, threads: seq<Thread>, messages: seq<Message>, users: seq<User>,
                           groupId: int, userId: int): (r: Result<seq<GroupThreadSummary>>)
    ensures r.Err? <==> FindMembership(members, groupId, userId).None?
    ensures r.Err? ==> r.error == Forbidden
    ensures r.Ok? ==> |r.value| == |ThreadsOfGroup(threads, groupId)|
    ensures r.Ok? ==> forall i :: 0 <= i < |r.value| ==>
              r.value[i] == GroupSummary(ThreadsOfGroup(threads, groupId)[i], messages, users)
  {
    if FindMembership(members, groupId, userId).None? then Err(Forbidden)
    else
      var ts := ThreadsOfGroup(threads, groupId);
      Ok(seq(|ts|, i requires 0 <= i < |ts| => GroupSummary(ts[i], messages, users)))
  }

  /** `getGroupThreads` lists exactly the group's threads: every summary is of
      a thread of the group, and every thread of the group has a summary. */
  lemma {:induction false} GroupThreadsExact(members: seq<Membership>, threads: seq<Thread>, messages: seq<Message>,
                                             users: seq<User>, groupId: int, userId: int, r: seq<GroupThreadSummary>)
    requires GetGroupThreads(members, threads, messages, users, groupId, userId) == Ok(r)
    ensures forall i :: 0 <= i < |r| ==> HasThread(threads, r[i].id, (t: Thread) => t.groupId == groupId)
    ensures forall t :: t in threads && t.groupId == groupId ==> exists i :: 0 <= i < |r| && r[i].id == t.id
  {
    var ts := ThreadsOfGroup(threads, groupId);
    forall i | 0 <= i < |r| ensures HasThread(threads, r[i].id, (t: Thread) => t.groupId == groupId) {
      assert ts[i] in ts;
    }
    forall t | t in threads && t.groupId == groupId ensures exists i :: 0 <= i < |r| && r[i].id == t.id {
      assert t in ts;
      var i :| 0 <= i < |ts| && ts[i] == t;
      assert r[i].id == t.id;
    }
  }
  /** `getGroupThreads` as written: its eager load includes `Message` without
      the alias "messages" and `User` under the alias "participant", while the
      `Thread` associations declare "messages" and "user", so every call that
      passes the membership check is refused by the storage and never lists
      anything. */
  function GetGroupThreadsAsWritten(members: seq<Membership>, groupId: int, userId: int)
    : (r: Result<seq<GroupThreadSummary>>)
    ensures r.Err?
    ensures r.error == Forbidden <==> FindMembership(members, groupId, userId).None?
    ensures FindMembership(members, groupId, userId).Some? ==> r == Err(UnknownAlias)
  {
    if FindMembership(members, groupId, userId).None? then Err(Forbidden) else Err(UnknownAlias)
  }

  /** The owner of group 1, which has one thread: the code as written fails,
      where the intended listing returns that one thread. */
  lemma GroupThreadsAsWrittenFailsForMembers()
    ensures GetGroupThreadsAsWritten([Membership(1, 7, Owner)], 1, 7) == Err(UnknownAlias)
    ensures var r := GetGroupThreads([Membership(1, 7, Owner)], [Thread(1, 3, 1, 0, 0)], [], [], 1, 7);
            r.Ok? && |r.value| == 1 && r.value[0].id == 1
  {
    assert FindMembership([Membership(1, 7, Owner)], 1, 7).Some? by {
      assert Membership(1, 7, Owner) in [Membership(1, 7, Owner)];
    }
    assert ThreadsOfGroup([Thread(1, 3, 1, 0, 0)], 1) == [Thread(1, 3, 1, 0, 0)];
  }

}

=== FILE: seqs.dfy ===
/** Queries over a table held as a sequence of rows: `findAll` with a where
    clause is `Filter`, `findOne` is `FindFirst`. */
module Seqs {
  import opened Common

  /** The rows of `s` satisfying `p`, in table order. */
  function Filter<T(==,!new)>(s: seq<T>, p: T -> bool): (r: seq<T>)
    ensures |r| <= |s|
    ensures forall x :: x in r <==> x in s && p(x)
  {
    if s == [] then []
    else if p(s[0]) then [s[0]] + Filter(s[1..], p)
    else Filter(s[1..], p)
  }

  /** Filtering a table that grew by `t` adds exactly the matching rows of `t`
      at the end: appending never reorders earlier results. */
  lemma {:induction false} FilterAppend<T(!new)>(s: seq<T>, t: seq<T>, p: T -> bool)
    ensures Filter(s + t, p) == Filter(s, p) + Filter(t, p)
  {
    if s == [] {
      assert s + t == t;
    } else {
      assert (s + t)[1..] == s[1..] + t;
      FilterAppend(s[1..], t, p);
    }
  }

  /** The first row satisfying `p`, if any. */
  function FindFirst<T(==,!new)>(s: seq<T>, p: T -> bool): (r: Option<T>)
    ensures r.Some? <==> exists x :: x in s && p(x)
    ensures r.Some? ==> r.value in s && p(r.value)
  {
    var f := Filter(s, p);
    if f == [] then None else assert f[0] in f; Some(f[0])
  }

  /** No two rows of `s` share a key. */
  ghost predicate UniqueBy<T, K>(s: seq<T>, key: T -> K) {
    forall i, j :: 0 <= i < j < |s| ==> key(s[i]) != key(s[j])
  }

  /** Appending a row whose key no row has keeps the keys unique. */
  lemma AppendFreshKey<T, K>(s: seq<T>, key: T -> K, x: T)
    requires UniqueBy(s, key)
    requires forall i :: 0 <= i < |s| ==> key(s[i]) != key(x)
    ensures UniqueBy(s + [x], key)
  {
    var t := s + [x];
    forall i, j | 0 <= i < j < |t| ensures key(t[i]) != key(t[j]) {
      if j == |s| { assert t[i] == s[i]; } else { assert t[i] == s[i] && t[j] == s[j]; }
    }
  }

  /** Auto-increment identifiers: ascending in table order and all below the
      next identifier to hand out. */
  ghost predicate IdsBelow<T>(s: seq<T>, id: T -> int, next: int) {
    && (forall i, j :: 0 <= i < j < |s| ==> id(s[i]) < id(s[j]))
    && (forall i :: 0 <= i < |s| ==> id(s[i]) < next)
  }

  /** Appending a row that takes the next identifier keeps identifiers
      ascending, with the counter moved on by one. */
  lemma AppendNextId<T>(s: seq<T>, id: T -> int, next: int, x: T)
    requires IdsBelow(s, id, next) && id(x) == next
    ensures IdsBelow(s + [x], id, next + 1)
  {
    var t := s + [x];
    forall i | 0 <= i < |s| ensures t[i] == s[i] { }
  }

  /** In a table whose keys are unique, a row with key `k` is the only one, so
      a lookup by that key finds exactly it. */
  lemma UniqueRowIsFound<T(!new), K>(s: seq<T>, key: T -> K, x: T)
    requires UniqueBy(s, key) && x in s
    ensures FindFirst(s, (y: T) => key(y) == key(x)) == Some(x)
  {
    var r := FindFirst(s, (y: T) => key(y) == key(x));
    var i :| 0 <= i < |s| && s[i] == x;
    var j :| 0 <= j < |s| && s[j] == r.value;
    assert i == j;
  }
}

=== FILE: tables.dfy ===
/** The storage the services read and write: one row type per table, the
    `findOne`/`findByPk` queries over them, and the `Database` object whose
    fields are the tables. Storage is sequential and in memory; each table is
    a sequence of rows in insertion order. */
module Tables {
  import opened Common
  import opened Seqs
  import Validation

  /** `GroupMembers.role`. */
  datatype Role = Owner | Member

  /** `GroupRequest.status` as the services write it: "Received", "Accepted"
      or "Denied". */
  datatype RequestStatus = Received | Accepted | Denied

  datatype User = User(
    id: int,
    email: string,
    username: string,
    password: string,
    address: string,
    mainInstrument: string,
    genresOfInterest: seq<string>,
    createdAt: int,
    updatedAt: int)

  datatype Group = Group(
    id: int,
    name: string,
    ownerId: int,
    genres: seq<string>,
    mainImageUrl: string,
    createdAt: int,
    updatedAt: int)

  /** A `GroupMembers` row. The table is the through-table of the user/group
      many-to-many association and declares no key of its own, so the storage
      makes (groupId, userId) its composite primary key. */
  datatype Membership = Membership(groupId: int, userId: int, role: Role)

  /** A `GroupRequest` row; (userId, groupId) is its composite primary key. */
  datatype JoinRequest = JoinRequest(userId: int, groupId: int, sentAt: int, status: RequestStatus)

  /** A `Thread` row; (userId, groupId) carries a unique index. */
  datatype Thread = Thread(id: int, userId: int, groupId: int, createdAt: int, updatedAt: int)

  /** A `Message` row; each sender column is nullable. */
  datatype Message = Message(
    id: int,
    threadId: int,
    senderUserId: Option<int>,
    senderGroupId: Option<int>,
    content: string,
    createdAt: int)

  function UserId(u: User): int { u.id }
  function UserEmail(u: User): string { u.email }
  function GroupId(g: Group): int { g.id }
  function ThreadId(t: Thread): int { t.id }
  function ThreadPair(t: Thread): (int, int) { (t.userId, t.groupId) }
  function MessageId(m: Message): int { m.id }
  function RequestKey(q: JoinRequest): (int, int) { (q.userId, q.groupId) }
  function MemberKey(m: Membership): (int, int) { (m.groupId, m.userId) }

  /** `User.findByPk(id)` (also `findUserById`): the user with that id, or
      nothing when no row has it. */
  function FindUser(users: seq<User>, id: int): (r: Option<User>)
    ensures r.Some? ==> r.value in users && r.value.id == id
    ensures r.None? <==> forall i :: 0 <= i < |users| ==> users[i].id != id
  {
    var r := FindFirst(users, (u: User) => u.id == id);
    assert r.None? ==> forall i :: 0 <= i < |users| ==> users[i].id != id by {
      if r.None? {
        forall i | 0 <= i < |users| ensures users[i].id != id { assert users[i] in users; }
      }
    }
    r
  }

  /** `User.findOne({ where: { email } })`. */
  function FindUserByEmail(users: seq<User>, email: string): Option<User> {
    FindFirst(users, (u: User) => u.email == email)
  }

  /** `Group.findOne({ where: { id } })` and `Group.findByPk(id)`. */
  function FindGroup(groups: seq<Group>, id: int): Option<Group> {
    FindFirst(groups, (g: Group) => g.id == id)
  }

  /** `Group.findOne({ where: { ownerId, id } })`: the group, if `ownerId` owns it. */
  function FindOwnedGroup(groups: seq<Group>, id: int, ownerId: int): Option<Group> {
    FindFirst(groups, (g: Group) => g.id == id && g.ownerId == ownerId)
  }

  /** `GroupRequest.findOne({ where: { group_id, user_id } })`. */
  function FindRequest(requests: seq<JoinRequest>, groupId: int, userId: int): Option<JoinRequest> {
    FindFirst(requests, (q: JoinRequest) => q.groupId == groupId && q.userId == userId)
  }

  /** `GroupMembers.findOne({ where: { groupId, userId } })`. */
  function FindMembership(members: seq<Membership>, groupId: int, userId: int): Option<Membership> {
    FindFirst(members, (m: Membership) => m.groupId == groupId && m.userId == userId)
  }

  /** `Thread.findByPk(id)`. */
  function FindThread(threads: seq<Thread>, id: int): Option<Thread> {
    FindFirst(threads, (t: Thread) => t.id == id)
  }

  /** `Thread.findOne({ where: { userId, groupId } })`, the lookup half of
      `findOrCreate`. */
  function FindThreadByPair(threads: seq<Thread>, userId: int, groupId: int): Option<Thread> {
    FindFirst(threads, (t: Thread) => t.userId == userId && t.groupId == groupId)
  }

  /** Exactly one of the two sender columns is set. */
  predicate OneSender(m: Message) {
    m.senderUserId.Some? != m.senderGroupId.Some?
  }

  /** Every group has the OWNER row naming its owner. */
  ghost predicate OwnersRecorded(groups: seq<Group>, members: seq<Membership>) {
    forall i :: 0 <= i < |groups| ==> Membership(groups[i].id, groups[i].ownerId, Owner) in members
  }

  /** No group has two OWNER rows. */
  ghost predicate OwnerRowsUnique(members: seq<Membership>) {
    forall i, j :: 0 <= i < j < |members| && members[i].role == Owner && members[j].role == Owner ==>
      members[i].groupId != members[j].groupId
  }

  /** The user model's column types: `mainInstrument` is an `ENUM` of the
      `Instrument` values and `genresOfInterest` an `ARRAY` of an `ENUM` of
      the `MusicGenre` values; the storage refuses a row that breaks either. */
  predicate UserEnumsValid(u: User) {
    && Validation.IsValidEnumValue(u.mainInstrument, Validation.INSTRUMENTS)
    && Validation.AreValidEnumValues(u.genresOfInterest, Validation.MUSIC_GENRES)
  }

  /** Users: auto-increment ids, unique email, and enum columns the storage
      accepts. */
  ghost predicate UsersValid(users: seq<User>, next: int) {
    && IdsBelow(users, UserId, next) && UniqueBy(users, UserEmail)
    && forall i :: 0 <= i < |users| ==> UserEnumsValid(users[i])
  }

  /** Groups: auto-increment ids; each group has exactly one OWNER row; one
      membership row per (group, user) pair; and every membership row names a
      group id already handed out. */
  ghost predicate GroupsValid(groups: seq<Group>, members: seq<Membership>, next: int) {
    && IdsBelow(groups, GroupId, next)
    && OwnersRecorded(groups, members) && OwnerRowsUnique(members)
    && UniqueBy(members, MemberKey)
    && (forall i :: 0 <= i < |members| ==> members[i].groupId < next)
  }

  /** Join requests: one row per (user, group) pair. */
  ghost predicate RequestsValid(requests: seq<JoinRequest>) {
    UniqueBy(requests, RequestKey)
  }

  /** Threads: auto-increment ids, one thread per (user, group) pair. */
  ghost predicate ThreadsValid(threads: seq<Thread>, next: int) {
    IdsBelow(threads, ThreadId, next) && UniqueBy(threads, ThreadPair)
  }

  /** Messages: auto-increment ids, exactly one sender column set. */
  ghost predicate MessagesValid(messages: seq<Message>, next: int) {
    IdsBelow(messages, MessageId, next) && forall i :: 0 <= i < |messages| ==> OneSender(messages[i])
  }

  /** The database. Each field is a table; the `next...` fields are the
      auto-increment counters of the tables with an integer primary key. */
  class Database {
    var users: seq<User>
    var groups: seq<Group>
    var members: seq<Membership>
    var requests: seq<JoinRequest>
    var threads: seq<Thread>
    var messages: seq<Message>
    var nextUserId: int
    var nextGroupId: int
    var nextThreadId: int
    var nextMessageId: int

    /** The storage constraints the services rely on (primary keys, the unique
        email column, the composite keys of `GroupRequest` and `GroupMembers`,
        the unique index of `Thread`) and the invariants the services keep (a
        group's OWNER row, the single sender of a message). */
    ghost predicate Valid()
      reads this
    {
      && UsersValid(users, nextUserId)
      && GroupsValid(groups, members, nextGroupId)
      && RequestsValid(requests)
      && ThreadsValid(threads, nextThreadId)
      && MessagesValid(messages, nextMessageId)
    }

    /** An empty database; auto-increment identifiers start at 1. */
    constructor ()
      ensures Valid()
      ensures users == [] && groups == [] && members == [] && requests == []
      ensures threads == [] && messages == []
      ensures nextUserId == 1 && nextGroupId == 1 && nextThreadId == 1 && nextMessageId == 1
    {
      users, groups, members, requests, threads, messages := [], [], [], [], [], [];
      nextUserId, nextGroupId, nextThreadId, nextMessageId := 1, 1, 1, 1;
    }
  }
}

=== FILE: user_service.dfy ===
/** The user service: registration, lookup by id and profile edits. Each
    returns the claims of a session token and its expiry; the signing itself
    is not part of this model. */
module UserService {
  import opened Common
  import opened Seqs
  import opened Tables
  import Validation

  /** `RegisterRequest`. */
  datatype RegisterRequest = RegisterRequest(
    email: string,
    username: string,
    password: string,
    address: string,
    mainInstrument: string,
    genresOfInterest: seq<string>)

  /** `TokenClaims`. There is no email and no password among them. */
  datatype TokenClaims = TokenClaims(
    userId: int,
    username: string,
    address: string,
    mainInstrument: string,
    genresOfInterest: seq<string>,
    createdAt: int,
    updatedAt: int,
    mainImageUrl: Option<string>)

  /** What is signed and when it expires (milliseconds since the epoch). */
  datatype Session = Session(claims: TokenClaims, expiry: int)

  /** A token lives 24 hours. */
  const TOKEN_LIFETIME_MS: int := 3600 * 1000 * 24

  /** `Date.now() + 3600 * 1000 * 24`. */
  function Expiry(now: int): (e: int)
    ensures e - now == 24 * 60 * 60 * 1000
  {
    now + TOKEN_LIFETIME_MS
  }

  /** The claims built from a stored user row; the row has no image URL. */
  function ClaimsOf(u: User): TokenClaims {
    TokenClaims(u.id, u.username, u.address, u.mainInstrument, u.genresOfInterest,
                u.createdAt, u.updatedAt, None)
  }

  /** The claims say nothing about the email or the password: two rows that
      differ only there give the same claims. */
  lemma ClaimsOmitCredentials(u: User, email: string, password: string)
    ensures ClaimsOf(u.(email := email, password := password)) == ClaimsOf(u)
  {
  }

  /** `registerUserAndGenerateJwt`: an email already in use fails and creates
      nothing; so does a row the user model refuses (an email its `isEmail`
      validator rejects, an instrument or genre outside its enums). Otherwise
      one user is created from exactly the six supplied fields (the password
      passing through the creation hook `hash`), and the session is for that
      user. */
  method RegisterUser(db: Database, req: RegisterRequest, hash: string -> string, isEmail: string -> bool,
                      now: int)
    returns (r: Result<Session>)
    requires db.Valid()
    modifies db`users, db`nextUserId
    ensures db.Valid()
    ensures FindUserByEmail(old(db.users), req.email).Some? ==> r == Err(UserAlreadyExists) && unchanged(db)
    ensures FindUserByEmail(old(db.users), req.email).None? ==>
      var u := User(old(db.nextUserId), req.email, req.username, hash(req.password), req.address,
                    req.mainInstrument, req.genresOfInterest, now, now);
      && (!(isEmail(req.email) && UserEnumsValid(u)) ==> r == Err(InvalidRow) && unchanged(db))
      && (isEmail(req.email) && UserEnumsValid(u) ==>
            && db.users == old(db.users) + [u]
            && db.nextUserId == old(db.nextUserId) + 1
            && r == Ok(Session(ClaimsOf(u), Expiry(now))))
  {
    var existingUser := FindUserByEmail(db.users, req.email);
    if existingUser.Some? {
      return Err(UserAlreadyExists);
    }
    var newUser := User(db.nextUserId, req.email, req.username, hash(req.password), req.address,
                        req.mainInstrument, req.genresOfInterest, now, now);
    if !(isEmail(newUser.email) && UserEnumsValid(newUser)) {
      return Err(InvalidRow);
    }
    forall i | 0 <= i < |db.users| ensures UserEmail(db.users[i]) != UserEmail(newUser) {
      assert db.users[i] in db.users;
    }
    AppendFreshKey(db.users, UserEmail, newUser);
    AppendNextId(db.users, UserId, db.nextUserId, newUser);
    db.users := db.users + [newUser];
    db.nextUserId := db.nextUserId + 1;
    var tokenClaims := TokenClaims(newUser.id, newUser.username, newUser.address, newUser.mainInstrument,
                                   newUser.genresOfInterest, newUser.createdAt, newUser.updatedAt, None);
    return Ok(Session(tokenClaims, Expiry(now)));
  }

  /** The optional arguments of `editUserProfile`. */
  datatype ProfileEdit = ProfileEdit(
    username: Option<string>,
    password: Option<string>,
    address: Option<string>,
    mainInstrument: Option<string>,
    genres: Option<seq<string>>)

  /** JavaScript truthiness of an optional string: present and not empty. */
  predicate Truthy(s: Option<string>) {
    s.Some? && s.value != ""
  }

  /** `x || fallback` for an optional string. */
  function Or(s: Option<string>, fallback: string): string {
    if Truthy(s) then s.value else fallback
  }

  /** `updatedData`: only the truthy arguments (any genre array, empty or
      not, is truthy). */
  function UpdatedData(edit: ProfileEdit): ProfileEdit {
    ProfileEdit(
      if Truthy(edit.username) then edit.username else None,
      if Truthy(edit.password) then edit.password else None,
      if Truthy(edit.address) then edit.address else None,
      if Truthy(edit.mainInstrument) then edit.mainInstrument else None,
      edit.genres)
  }

  /** The row with the truthy arguments written, before the storage stamps it. */
  function Merged(u: User, edit: ProfileEdit): User {
    u.(
      username := Or(edit.username, u.username),
      password := Or(edit.password, u.password),
      address := Or(edit.address, u.address),
      mainInstrument := Or(edit.mainInstrument, u.mainInstrument),
      genresOfInterest := if edit.genres.Some? then edit.genres.value else u.genresOfInterest)
  }

  /** The stored row after `existingUser.update(updatedData)`: the storage
      moves `updatedAt` to `now` only when some stored value actually changed. */
  function ApplyEdit(u: User, edit: ProfileEdit, now: int): User {
    var merged := Merged(u, edit);
    if merged == u then u else merged.(updatedAt := now)
  }

  /** The claims `editUserProfile` signs: each field is the argument when it
      is truthy and the stored value otherwise, `createdAt` is the stored one,
      `updatedAt` is now, and the image URL is whatever the upload produced. */
  function EditClaims(u: User, edit: ProfileEdit, uploadedUrl: Option<string>, now: int): TokenClaims {
    TokenClaims(
      u.id,
      Or(edit.username, u.username),
      Or(edit.address, u.address),
      Or(edit.mainInstrument, u.mainInstrument),
      if edit.genres.Some? then edit.genres.value else u.genresOfInterest,
      u.createdAt,
      now,
      uploadedUrl)
  }

  /** The row with `row.id` replaced by `row`; every other row is kept. */
  function ReplaceUser(users: seq<User>, row: User): (r: seq<User>)
    ensures |r| == |users|
    ensures forall i :: 0 <= i < |users| ==> r[i] == if users[i].id == row.id then row else users[i]
  {
    seq(|users|, i requires 0 <= i < |users| => if users[i].id == row.id then row else users[i])
  }

  /** The row and claims `editUserProfile` computes for one existing user.
      `uploadedUrl` is what the blob upload produced for the new image; it is
      `None` when no image was sent or the upload produced nothing. The URL is
      set on the instance but is not a column of the user table, so only the
      claims carry it. */
  method EditedRow(existingUser: User, edit: ProfileEdit, uploadedUrl: Option<string>, now: int)
    returns (row: User, tokenClaims: TokenClaims)
    ensures row == ApplyEdit(existingUser, edit, now)
    ensures tokenClaims == EditClaims(existingUser, edit, uploadedUrl, now)
  {
    var mainImageUrl: Option<string> := None;
    var instanceImageUrl: Option<string> := None;
    if uploadedUrl.Some? {
      mainImageUrl := uploadedUrl;
      instanceImageUrl := mainImageUrl;
    }

    var updatedData := ProfileEdit(None, None, None, None, None);
    if Truthy(edit.username) { updatedData := updatedData.(username := edit.username); }
    if Truthy(edit.password) { updatedData := updatedData.(password := edit.password); }
    if Truthy(edit.address) { updatedData := updatedData.(address := edit.address); }
    if Truthy(edit.mainInstrument) { updatedData := updatedData.(mainInstrument := edit.mainInstrument); }
    if edit.genres.Some? { updatedData := updatedData.(genres := edit.genres); }
    assert updatedData == UpdatedData(edit);

    tokenClaims := TokenClaims(
      existingUser.id,
      Or(edit.username, existingUser.username),
      Or(edit.address, existingUser.address),
      Or(edit.mainInstrument, existingUser.mainInstrument),
      if edit.genres.Some? then edit.genres.value else existingUser.genresOfInterest,
      existingUser.createdAt,
      now,
      if Truthy(mainImageUrl) then mainImageUrl else instanceImageUrl);

    row := existingUser;
    if updatedData.username.Some? { row := row.(username := updatedData.username.value); }
    if updatedData.password.Some? { row := row.(password := updatedData.password.value); }
    if updatedData.address.Some? { row := row.(address := updatedData.address.value); }
    if updatedData.mainInstrument.Some? { row := row.(mainInstrument := updatedData.mainInstrument.value); }
    if updatedData.genres.Some? { row := row.(genresOfInterest := updatedData.genres.value); }
    assert row == Merged(existingUser, edit);
    if row != existingUser {
      row := row.(updatedAt := now);
    }
  }

  /** `editUserProfile`. A user that does not exist fails with the TypeError of
      reading its fields, and nothing changes. So does an edit whose row the
      user model refuses (an instrument or genre outside its enums). Otherwise
      the truthy fields are written to the user's row, no other row changes,
      and the session carries the merged claims. */
  method EditUserProfile(db: Database, userId: int, edit: ProfileEdit, uploadedUrl: Option<string>, now: int)
    returns (r: Result<Session>)
    requires db.Valid()
    modifies db`users
    ensures db.Valid()
    ensures FindUser(old(db.users), userId).None? ==> r == Err(NullUser) && unchanged(db)
    ensures FindUser(old(db.users), userId).Some? ==>
      var u := FindUser(old(db.users), userId).value;
      && (!UserEnumsValid(ApplyEdit(u, edit, now)) ==> r == Err(InvalidRow) && unchanged(db))
      && (UserEnumsValid(ApplyEdit(u, edit, now)) ==>
            && db.users == ReplaceUser(old(db.users), ApplyEdit(u, edit, now))
            && r == Ok(Session(EditClaims(u, edit, uploadedUrl, now), Expiry(now))))
  {
    var found := FindUser(db.users, userId);
    if found.None? {
      return Err(NullUser);
    }
    var existingUser := found.value;
    var row, tokenClaims := EditedRow(existingUser, edit, uploadedUrl, now);
    if !UserEnumsValid(row) {
      return Err(InvalidRow);
    }
    var users := ReplaceUser(db.users, row);
    assert UsersValid(users, db.nextUserId) by {
      forall i | 0 <= i < |users|
        ensures users[i].id == db.users[i].id && users[i].email == db.users[i].email && UserEnumsValid(users[i])
      { }
    }
    db.users := users;
    return Ok(Session(tokenClaims, Expiry(now)));
  }

  /** On a stored row, which the storage has already accepted, an edit is
      refused exactly when it writes an instrument outside `Instrument` or a
      genre list with a value outside `MusicGenre`; the fields it leaves alone
      never cause a refusal. */
  lemma EditRefusedExactlyForBadValues(u: User, edit: ProfileEdit, now: int)
    requires UserEnumsValid(u)
    ensures UserEnumsValid(ApplyEdit(u, edit, now)) <==>
              && (Truthy(edit.mainInstrument) ==>
                    Validation.IsValidEnumValue(edit.mainInstrument.value, Validation.INSTRUMENTS))
              && (edit.genres.Some? ==>
                    Validation.AreValidEnumValues(edit.genres.value, Validation.MUSIC_GENRES))
  {
  }

  /** The signed claims agree with the stored row after the edit on every
      field they both carry; they are stamped with `now` even when the row's
      `updatedAt` did not move. */
  lemma EditClaimsMatchRow(u: User, edit: ProfileEdit, uploadedUrl: Option<string>, now: int)
    ensures EditClaims(u, edit, uploadedUrl, now) ==
            ClaimsOf(ApplyEdit(u, edit, now)).(updatedAt := now, mainImageUrl := uploadedUrl)
  {
  }

  /** The edit never touches the id, the email or `createdAt`; the password
      changes exactly when a truthy one is supplied, and is stored as given
      (no hashing hook runs on update). */
  lemma EditKeepsIdentity(u: User, edit: ProfileEdit, now: int)
    ensures ApplyEdit(u, edit, now).id == u.id
    ensures ApplyEdit(u, edit, now).email == u.email
    ensures ApplyEdit(u, edit, now).createdAt == u.createdAt
    ensures ApplyEdit(u, edit, now).password == if Truthy(edit.password) then edit.password.value else u.password
  {
  }

  /** `updatedAt` moves exactly when the edit changes a stored value, and then
      to `now`. */
  lemma EditStampsOnlyChanges(u: User, edit: ProfileEdit, now: int)
    ensures ApplyEdit(u, edit, now).updatedAt != u.updatedAt ==> ApplyEdit(u, edit, now).updatedAt == now
    ensures ApplyEdit(u, edit, now).(updatedAt := u.updatedAt) == u ==> ApplyEdit(u, edit, now) == u
  {
  }

  /** An edit with nothing truthy leaves the row exactly as it was,
      `updatedAt` included. */
  lemma EmptyEditChangesNothing(u: User, edit: ProfileEdit, now: int)
    requires !Truthy(edit.username) && !Truthy(edit.password) && !Truthy(edit.address)
    requires !Truthy(edit.mainInstrument) && edit.genres.None?
    ensures ApplyEdit(u, edit, now) == u
  {
  }

  /** Repeating an edit changes nothing more: the second application finds
      every value already in place and does not even move `updatedAt`. */
  lemma EditIsIdempotent(u: User, edit: ProfileEdit, now: int, later: int)
    ensures ApplyEdit(ApplyEdit(u, edit, now), edit, later) == ApplyEdit(u, edit, now)
  {
  }
}

=== FILE: validation.dfy ===
/** The request-body rule sets applied before the user and login services run:
    enum membership for genres and instruments, minimum lengths, and which
    fields are required. Every rule set is a predicate over the body. */
module Validation {
  import opened Common

  /** The string values of the `MusicGenre` enum. */
  const MUSIC_GENRES: seq<string> :=
    ["Rock", "Jazz", "Classical", "Pop", "Hip-Hop", "Electronic", "Blues", "Country", "Reggae", "Metal"]

  /** The string values of the `Instrument` enum. */
  const INSTRUMENTS: seq<string> :=
    ["Guitar", "Piano", "Drums", "Violin", "Bass", "Saxophone", "Flute", "Cello", "Trumpet", "Vocals"]

  /** `isValidEnumValue`: the value is one of the enum's string values (not one
      of its key names). */
  predicate IsValidEnumValue(value: string, enumValues: seq<string>) {
    value in enumValues
  }

  /** `areValidEnumValues`: every element is a valid enum value. */
  predicate AreValidEnumValues(values: seq<string>, enumValues: seq<string>) {
    forall i :: 0 <= i < |values| ==> IsValidEnumValue(values[i], enumValues)
  }

  /** The `genresOfInterest` field of a body: absent, present but not an
      array, or an array of strings. */
  datatype ListField = Missing | NotArray | Array(items: seq<string>)

  /** A request body with the fields the rule sets look at; `None` is a field
      the client did not send. */
  datatype Body = Body(
    email: Option<string>,
    username: Option<string>,
    password: Option<string>,
    address: Option<string>,
    mainInstrument: Option<string>,
    genresOfInterest: ListField)

  /** A field as the string validators see it: a missing field reads as "". */
  function TextOf(field: Option<string>): string {
    match field
    case None => ""
    case Some(s) => s
  }

  /** `isLength({ min: n })`. */
  predicate MinLength(s: string, n: nat) {
    |s| >= n
  }

  /** `validateLoginRequest`: an email (`isEmail`, supplied by the validator
      library and opaque here) that is not empty, and a password of at least
      10 characters that is not empty. A missing field fails both checks. */
  predicate ValidLogin(b: Body, isEmail: string -> bool)
    ensures ValidLogin(b, isEmail) <==>
              && b.email.Some? && b.email.value != "" && isEmail(b.email.value)
              && b.password.Some? && |b.password.value| >= 10
  {
    var email, password := TextOf(b.email), TextOf(b.password);
    && isEmail(email) && email != ""
    && MinLength(password, 10) && password != ""
  }

  /** `validateRegisterRequest`: every field is required. `.notEmpty()` on the
      genre array checks each element, so it adds nothing to the enum check and
      an empty array passes. */
  predicate ValidRegister(b: Body, isEmail: string -> bool)
    ensures ValidRegister(b, isEmail) ==>
              && b.email.Some? && isEmail(b.email.value)
              && b.username.Some? && |b.username.value| >= 6
              && b.password.Some? && |b.password.value| >= 10
              && b.address.Some? && |b.address.value| >= 10
              && b.mainInstrument.Some? && b.mainInstrument.value in INSTRUMENTS
              && b.genresOfInterest.Array?
              && forall g :: g in b.genresOfInterest.items ==> g in MUSIC_GENRES
  {
    var email, username, password, address, instrument :=
      TextOf(b.email), TextOf(b.username), TextOf(b.password), TextOf(b.address), TextOf(b.mainInstrument);
    && isEmail(email) && email != ""
    && MinLength(username, 6) && username != ""
    && MinLength(password, 10) && password != ""
    && MinLength(address, 10) && address != ""
    && instrument != "" && IsValidEnumValue(instrument, INSTRUMENTS)
    && b.genresOfInterest.Array?
    && AreValidEnumValues(b.genresOfInterest.items, MUSIC_GENRES)
  }

  /** `validateEditProfileRequest`: every chain is `.optional()`, so an absent
      field passes, and a body with none of the profile fields is valid; a
      present one meets the same length and enum rules as at registration: an
      instrument outside `Instrument`, a genre field that is not an array, or
      a genre outside `MusicGenre` is rejected. */
  predicate ValidEditProfile(b: Body)
    ensures (&& b.username.None? && b.password.None? && b.address.None?
             && b.mainInstrument.None? && b.genresOfInterest.Missing?) ==> ValidEditProfile(b)
    ensures b.mainInstrument.Some? && !IsValidEnumValue(b.mainInstrument.value, INSTRUMENTS) ==>
              !ValidEditProfile(b)
    ensures b.genresOfInterest.NotArray? ==> !ValidEditProfile(b)
    ensures b.genresOfInterest.Array? && !AreValidEnumValues(b.genresOfInterest.items, MUSIC_GENRES) ==>
              !ValidEditProfile(b)
  {
    && (b.username.Some? ==> MinLength(b.username.value, 6))
    && (b.password.Some? ==> MinLength(b.password.value, 10))
    && (b.address.Some? ==> MinLength(b.address.value, 10))
    && (b.mainInstrument.Some? ==> IsValidEnumValue(b.mainInstrument.value, INSTRUMENTS))
    && (!b.genresOfInterest.Missing? ==>
          b.genresOfInterest.Array? && AreValidEnumValues(b.genresOfInterest.items, MUSIC_GENRES))
  }

  /** The enum check compares against values, not key names: "Hip-Hop" is a
      genre, "HIPHOP" (the key of that value) is not. */
  lemma GenreValueNotKey()
    ensures IsValidEnumValue("Hip-Hop", MUSIC_GENRES)
    ensures !IsValidEnumValue("HIPHOP", MUSIC_GENRES)
  {
    assert MUSIC_GENRES[4] == "Hip-Hop";
    assert forall i :: 0 <= i < |MUSIC_GENRES| ==> MUSIC_GENRES[i][0] != 'H' || MUSIC_GENRES[i][1] == 'i';
  }

  /** `areValidEnumValues` is a conjunction over the list: it holds of the empty
      list, and of a concatenation exactly when it holds of both parts. */
  lemma {:induction false} AreValidEnumValuesAppend(xs: seq<string>, ys: seq<string>, enumValues: seq<string>)
    ensures AreValidEnumValues([], enumValues)
    ensures AreValidEnumValues(xs + ys, enumValues) <==>
              AreValidEnumValues(xs, enumValues) && AreValidEnumValues(ys, enumValues)
  {
    if AreValidEnumValues(xs, enumValues) && AreValidEnumValues(ys, enumValues) {
      forall i | 0 <= i < |xs + ys| ensures IsValidEnumValue((xs + ys)[i], enumValues) {
        if i >= |xs| { assert (xs + ys)[i] == ys[i - |xs|]; }
      }
    }
    if AreValidEnumValues(xs + ys, enumValues) {
      forall i | 0 <= i < |ys| ensures IsValidEnumValue(ys[i], enumValues) {
        assert (xs + ys)[|xs| + i] == ys[i];
      }
      forall i | 0 <= i < |xs| ensures IsValidEnumValue(xs[i], enumValues) {
        assert (xs + ys)[i] == xs[i];
      }
    }
  }

  /** Registration rejects a username shorter than 6, a password shorter than
      10 or an address shorter than 10 characters (a missing field counts as
      empty); edit-profile rejects each of those values when it is sent,
      whatever the other fields hold. */
  lemma ShortFieldsRejected(b: Body, isEmail: string -> bool)
    requires |TextOf(b.username)| < 6 || |TextOf(b.password)| < 10 || |TextOf(b.address)| < 10
    ensures !ValidRegister(b, isEmail)
    ensures b.username.Some? && |b.username.value| < 6 ==> !ValidEditProfile(b)
    ensures b.password.Some? && |b.password.value| < 10 ==> !ValidEditProfile(b)
    ensures b.address.Some? && |b.address.value| < 10 ==> !ValidEditProfile(b)
  {
  }

  /** The genre field must be an array at registration and, when sent, at
      edit-profile; an empty array passes both rule sets exactly as a
      one-genre array or (at edit-profile) an absent field would. */
  lemma GenreArrayRules(b: Body, isEmail: string -> bool)
    ensures !b.genresOfInterest.Array? ==> !ValidRegister(b, isEmail)
    ensures b.genresOfInterest == NotArray ==> !ValidEditProfile(b)
    ensures ValidRegister(b.(genresOfInterest := Array([])), isEmail) <==>
            ValidRegister(b.(genresOfInterest := Array(["Rock"])), isEmail)
    ensures ValidEditProfile(b.(genresOfInterest := Array([]))) <==>
            ValidEditProfile(b.(genresOfInterest := Missing))
  {
    assert MUSIC_GENRES[0] == "Rock";
  }

  /** Every body valid for registration is valid for edit-profile: the edit
      rule set is the registration one with every field made optional. */
  lemma RegisterValidIsEditValid(b: Body, isEmail: string -> bool)
    requires ValidRegister(b, isEmail)
    ensures ValidEditProfile(b)
  {
  }

  /** In a valid edit-profile body every string field that is present is
      non-empty, so the profile edit's "supplied with a truthy value" and
      "present" agree for those fields. */
  lemma ValidEditFieldsAreTruthy(b: Body)
    requires ValidEditProfile(b)
    ensures b.username.Some? ==> b.username.value != ""
    ensures b.password.Some? ==> b.password.value != ""
    ensures b.address.Some? ==> b.address.value != ""
    ensures b.mainInstrument.Some? ==> b.mainInstrument.value != ""
  {
    if b.mainInstrument.Some? {
      assert b.mainInstrument.value in INSTRUMENTS;
      assert forall i :: 0 <= i < |INSTRUMENTS| ==> INSTRUMENTS[i] != "";
    }
  }
}
